=== FILE: README.md ===
# A verified model of the BACKEND social API

The system is a FastAPI backend for a small social network. This project models the business rules of its request handlers in Dafny:

- accounts: registration, login, email verification and two-factor set-up;
- the request dependencies every handler relies on;
- the follow graph and likes, with their counters and the engagement scores;
- posts and the date-ordered feed;
- private chat rooms and the message relay;
- the admin log;
- profile pictures and file download.

Every handler is a pure function from a `Store` to a `Result`. The store stands for the database plus the set of file paths present on disk:

- one map per table: users, posts, chat rooms, logs;
- one set per link table: follows, likes;
- the append-only interaction log.

An `Err` is the `HTTPException` the handler raises, with its status and detail text. The caller's store is then unchanged. The handler's caller (`get_current_active_user`) is passed in as `me`.

Inputs the model cannot compute are passed in as parameters:

- the clock (`now`, whole seconds);
- the key the database assigns to a new row;
- the random verification code and UUID;
- what the mailer reported (`sent`);
- the outcome of decoding an image (`imageOk`);
- the count Redis returned;
- the oracles for password hashing and verification, JWT encoding and decoding, and TOTP checking.

`get_user` takes the `.first()` row of an unordered query. The model picks that row with a ghost choice over the ids carrying the name, so the functions built on it are ghost.

Modules follow the source files:

| module | file |
|---|---|
| `Wrappers` | Option, Result, Outcome |
| `Config` | core/config.py |
| `Records` | the rows and the store |
| `Text` | Python `str` operations |
| `Dependencies` | dependencies.py |
| `Engagement` | services/engagement.py |
| `Social` | routers/social.py |
| `Posts` | routers/posts.py |
| `Users` | routers/users.py |
| `Auth` | routers/auth.py |
| `Chat` | routers/chat.py |
| `Admin` | routers/admin.py |
| `Files` | routers/files.py |

Where the code does something other than its comments or names suggest, the model follows the code:

- `unlike_post` removes only the like edge, and keeps the counters, the score and the interaction.
- A follow of oneself is accepted. It shifts both counters of the same row.
- A chat message is stored even when its sender is not a participant of the room.
- main.py:108-114 never includes `chat_router`, so the chat routes are not reachable in the running app. The chat rules are modelled as written anyway.

## Model

| member | source | states |
|---|---|---|
| Dependencies.GetUser | dependencies.py:35-39 | a user is found exactly when some row carries the name, and the row found carries it |
| Dependencies.GetUserDependsOnNames | dependencies.py:35-39 | the lookup depends only on which rows carry the name, so updates that keep usernames keep lookups |
| Dependencies.UniqueNameIsFound | dependencies.py:35-39 | when exactly one row carries the name, the lookup returns that row |
| Dependencies.AuthenticateUser | dependencies.py:41-47 | fails exactly when the name is unknown or the password oracle rejects the stored hash; on success the user carries the name and the oracle accepted |
| Dependencies.TokenExpiry | dependencies.py:49-54 | expiry is now plus the delta; an absent or zero (falsy) delta gives the 15-minute default |
| Dependencies.TokenOfCookie | dependencies.py:67 | the token is no longer than the cookie; a cookie without "Bearer " is the token itself; "Bearer " + t gives t when t has none of its own |
| Dependencies.GetCurrentUser | dependencies.py:57-79 | a missing or empty cookie, an undecodable token or a missing "sub" gives 401 "Could not validate credentials"; otherwise the result is whatever `get_user` returned for the subject, including its `False` sentinel |
| Dependencies.ActiveUser | dependencies.py:81-86 | a disabled user gets 400 "Inactive user"; the sentinel gets the global handler's 500; an enabled user passes unchanged |
| Dependencies.CurrentActiveUserAsWritten | dependencies.py:57-86 | any user the chain accepts exists and is not disabled |
| Dependencies.UnknownSubjectGets500 | dependencies.py:76-79 | as written, a valid token naming no user gets 500 "An unexpected error occurred" |
| Dependencies.GetCurrentUserChecked | dependencies.py:76-79 | corrected lookup: succeeds exactly when the written chain found a real user, and then returns that user's id |
| Dependencies.CurrentActiveUser | dependencies.py:57-86 | corrected chain: any user accepted exists and is enabled, and every failure is a 401 or 400, never a 500 |
| Dependencies.UnknownSubjectGets401 | dependencies.py:76-79 | with the correction, a token naming no user gets the credentials error |
| Dependencies.AdminOnly | dependencies.py:88-91 | passes exactly the admins; everyone else gets 403 "Admin access required" |
| Dependencies.IsLikedByUser | dependencies.py:161-167 | no flag without a viewer; otherwise true exactly when the viewer has a like edge to the post |
| Dependencies.RateLimitCheck | dependencies.py:99-104 | a 429 exactly when the window's count exceeds the limit |
| Dependencies.RateLimit | dependencies.py:94-107 | the dependency lets every request through, because the `except Exception` also swallows its own 429 |
| Dependencies.RateLimitNeverRefuses | dependencies.py:103-107 | an over-limit count fails the check, yet the dependency still passes the request |
| Dependencies.RateLimitIntended | dependencies.py:94-107 | corrected limiter: refuses with 429 exactly the over-limit counts, and lets a failed Redis call through |
| Dependencies.IntendedLimiterDiffersOnlyOverLimit | dependencies.py:94-107 | the written and the corrected limiter differ exactly on the over-limit counts |
| Engagement.Decay | services/engagement.py:21-22 | for a non-negative age the decay lies in (0, 1], and times (1 + hours/24) it gives 1 |
| Engagement.RawScore | services/engagement.py:14-19 | the weighted counter sum is never negative, and is zero exactly when all four counters are |
| Engagement.PostScore | services/engagement.py:5-24 | for a post not dated in the future, 0 <= score <= weighted raw score; all-zero counters score 0 |
| Engagement.OneMoreLike | services/engagement.py:14-19 | one more like raises the raw score by exactly the like weight 1.0 |
| Engagement.ZeroCountersScoreZero | services/engagement.py:14-24 | with all four counters at zero the score is 0 at every age |
| Engagement.DecayAfterOneDay | services/engagement.py:22 | after 24 hours the decay is exactly 1/2, as the half-life comment says |
| Engagement.DecayStrictlyDecreasing | services/engagement.py:22 | the decay strictly falls as the age grows from 0 |
| Engagement.ScoreStrictlyDecreasing | services/engagement.py:21-24 | with any interaction, a post's score strictly falls as time passes |
| Engagement.ScoreMonotoneInCounters | services/engagement.py:14-24 | at a fixed age, more of every counter never lowers the score |
| Engagement.Matching | services/engagement.py:28-30 | the query result holds only the user's interactions, drawn from the log, and every one of them |
| Engagement.MatchingCountsPositions | services/engagement.py:28-30 | the query result has one entry per log position holding the user's interactions, so repeated equal entries are each counted |
| Engagement.MatchingAppend | services/engagement.py:28-30 | appending an interaction extends the user's matches by it exactly when it is theirs |
| Engagement.OthersIrrelevant | services/engagement.py:28-30 | other users' interactions never change a user's matches |
| Engagement.CountInteractions | services/engagement.py:28-34 | the loop's count equals the length of the query result and the number of log positions holding the user's interactions |
| Engagement.RatePerPost | services/engagement.py:33-36 | 0.0 for a user without posts, otherwise interactions / post count, and never negative |
| Engagement.EngagementRate | services/engagement.py:28-36 | the rate is interactions per post taken over the log positions holding the user's interactions, repeats included, and 0.0 without posts |
| Engagement.UpdateUserEngagementRate | services/engagement.py:26-42 | the returned rate is the recomputed one, it is stored on that user, and nothing else changes |
| Engagement.UpdateRateIdempotent | services/engagement.py:26-42 | recomputing with the log and post count unchanged gives the same rate and the same store |
| Engagement.RateIgnoresOthers | services/engagement.py:28-36 | interactions by other users never change a user's rate |
| Social.ShiftCounters | routers/social.py:34-35 | only `from`'s following count and `to`'s follower count move by delta, even when they are the same row |
| Social.Follow | routers/social.py:16-42 | unknown name gives 404; an existing edge gives 400; a found user not yet followed is followed: exactly the edge is added and both counters rise by one |
| Social.Unfollow | routers/social.py:44-69 | unknown name gives 404; a missing edge gives 400; a found user already followed is unfollowed: exactly the edge is removed and both counters fall by one |
| Social.EdgeSetsAfterAdd | routers/social.py:37-38 | a new edge adds one to its source's following set and to its target's follower set, and to no other |
| Social.EdgeSetsAfterRemove | routers/social.py:65 | removing an edge takes one from its source's and its target's sets, and from no other |
| Social.FollowKeepsCounters | routers/social.py:34-38 | a follow keeps every counter equal to the size of its edge set |
| Social.UnfollowKeepsCounters | routers/social.py:62-65 | an unfollow keeps every counter equal to the size of its edge set |
| Social.ShiftInverse | routers/social.py:34-35 | shifting by delta and then by -delta restores the rows |
| Social.FollowThenUnfollow | routers/social.py:34-38 | unfollowing right after following restores the store exactly |
| Social.UnfollowThenFollow | routers/social.py:62-65 | following right after unfollowing restores the store exactly |
| Social.RecordLike | routers/social.py:88-102 | adds the like edge and one LIKE interaction, raises the post's like count and the author's likes received by one, rescores the post from the new counters, and changes nothing else |
| Social.RefreshRates | routers/social.py:105-107 | the caller's and then the author's rate are recomputed from the log; no other row changes |
| Social.LikePost | routers/social.py:71-109 | a missing post gives 404 and a repeated like 400, with nothing appended; a success adds the edge and exactly one LIKE interaction, rescores the post and refreshes both rates |
| Social.UnlikePost | routers/social.py:111-130 | a missing post gives 404 and an absent like 400; a success removes only the like edge |
| Social.LikeThenUnlike | routers/social.py:95-127 | like then unlike restores the like edges but keeps the raised count and the logged interaction |
| Social.LikeKeepsWellformed | routers/social.py:71-109 | a like keeps every row under its key and every post's author present |
| Social.LikeSetsLikedFlag | routers/social.py:95-101 | the viewer's liked flag on a post turns true with their like and false again with the unlike |
| Posts.CreatePost | routers/posts.py:20-32 | the new post is the caller's, with the body's text, all counters at zero and the process-wide default date; nothing else changes |
| Posts.CreateIgnoresClaimedOwner | routers/posts.py:27-28 | the owner the client claims never matters |
| Posts.DeletePost | routers/posts.py:51-64 | a missing post gives 404 and another user's post 401; the owner's post is removed and returned, and nothing else changes |
| Posts.DeleteUndoesCreate | routers/posts.py:20-64 | deleting a post just created restores the store |
| Posts.Ordering | routers/posts.py:77 | every id appears exactly once, newest first |
| Posts.Window | routers/posts.py:77 | `OFFSET o LIMIT l` keeps at most l rows, starting at o, in order |
| Posts.GetPostsFeed | routers/posts.py:68-79 | page < 1, limit < 1 or limit > 100 gives the 422 validation error; otherwise the page is the window at (page - 1) * limit of all posts newest first |
| Posts.FeedPageShape | routers/posts.py:75-78 | a page has at most `limit` stored posts, with non-increasing dates |
| Posts.ConsecutivePagesContiguous | routers/posts.py:75-78 | pages p and p + 1 together are the window of twice the limit at page p's offset |
| Posts.ConsecutivePagesDisjoint | routers/posts.py:75-78 | no post appears on two consecutive pages |
| Posts.EveryPostOnSomePage | routers/posts.py:76-78 | the feed has no filter: every stored post is on some page |
| Users.IndexOf | routers/users.py:28-29 | the first position of the character, or -1 when it is absent |
| Users.LastIndexOf | routers/users.py:28-29 | the last position of the character, or -1 when it is absent |
| Users.IsValidEmail | routers/users.py:26-29 | an accepted address has at least six characters and an '@' |
| Users.ScanMatchesPattern | routers/users.py:28-29 | the one-pass scan accepts exactly the strings the pattern body matches in full |
| Users.IsValidEmailMeansPattern | routers/users.py:26-29 | `is_valid_email` accepts exactly what `re.match` accepts, including one trailing newline before `$` |
| Users.ValidEmailHasOneAt | routers/users.py:28 | every accepted email has exactly one '@' |
| Users.InsertUser | routers/users.py:52-70 | one new row with the hashed password, the pending code and its expiry, not verified, disabled, admin or two-factor; no other row changes |
| Users.ValidateUser | routers/users.py:36-50 | checks run in the order username, password, email, duplicate, and the first failure decides the error |
| Users.CreateUser | routers/users.py:32-78 | a validation error is returned as is; a failed email send gives 500 and leaves the store as it was; a success stores the new row with an expiry 30 minutes on |
| Users.RegisterTwiceConflicts | routers/users.py:48-50 | registering the same username again gives 409 |
| Users.RegisteredEmailHasOneAt | routers/users.py:45-46 | every registered email has exactly one '@' |
| Auth.Login | routers/auth.py:21-50 | wrong credentials give 401; otherwise an "access_token" cookie, HTTP-only, secure and Lax, holding "Bearer " and a token for the user's name that expires with the cookie 1800 seconds on |
| Auth.LoginCookieIdentifiesUser | routers/auth.py:35-44 | with a decoder that accepts a token only before its `exp` claim, the login cookie with "Bearer " stripped identifies the same user to every request made in the next 1800 seconds, and gets the credentials error from then on |
| Auth.EnableTwoFactor | routers/auth.py:59-74 | refused with 400 when already enabled; otherwise stores the new secret and leaves two-factor off |
| Auth.VerifyTwoFactor | routers/auth.py:76-92 | no secret gives 400; an accepted code turns two-factor on; a rejected code changes nothing |
| Auth.EnableThenVerifyTwoFactor | routers/auth.py:59-92 | enable then a valid code turns two-factor on, after which enabling is refused |
| Auth.VerifyEmail | routers/auth.py:94-120 | checks in order already verified, no code pending, a missing expiry (500), expired (strict `<`), wrong code; success marks verified and clears the code and expiry |
| Auth.VerifyEmailOnce | routers/auth.py:101-115 | a second verification is refused as already verified |
| Auth.ResendVerification | routers/auth.py:122-142 | verified users get 400; a new code and expiry are kept only when the email went out, otherwise 500 with nothing changed |
| Auth.RegisterThenVerify | routers/auth.py:107-108 | the emailed code verifies up to and including the expiry instant, and is expired after it |
| Auth.ResendThenVerify | routers/auth.py:107-115 | after a resend, the new code verifies within the window and any other code is rejected |
| Chat.Connect | routers/chat.py:24-26 | the user's latest socket replaces any earlier one; other users keep theirs |
| Chat.Disconnect | routers/chat.py:28-30 | the user's socket is forgotten, and an absent user is a no-op |
| Chat.SendTarget | routers/chat.py:32-34 | a payload goes to the user's socket, and is dropped when the user is not connected |
| Chat.ConnectOverwrites | routers/chat.py:24-26 | reconnecting keeps only the latest socket |
| Chat.ConnectThenDisconnect | routers/chat.py:24-30 | connect then disconnect of a new user restores the registry |
| Chat.RoomsWithBothMeansBoth | routers/chat.py:96-104 | a room counts twice exactly when both of two different users are participants |
| Chat.NoRoomWithOneself | routers/chat.py:96-104 | the count-of-two query never finds a room for a user paired with themself |
| Chat.CreateChatRoom | routers/chat.py:88-120 | an existing shared room is returned with nothing created; an unknown other user gives 404; a room with oneself gives the global handler's 500; otherwise a new room with exactly the two participants |
| Chat.CreateChatRoomFindsExisting | routers/chat.py:96-107 | asking again, from either side, returns the room just created and creates nothing |
| Chat.ParticipantRoom | routers/chat.py:143-149 | a missing room gives 404 and a non-participant 403, in that order |
| Chat.GetMessages | routers/chat.py:136-163 | after the guards, returns the room's messages in storage order and moves only the caller's `last_read_at` to now |
| Chat.AttachmentName | routers/chat.py:181-182 | the saved name starts with "chat_" and the uuid, and reading its extension back gives the upload's extension whatever the uuid contains |
| Chat.UploadFile | routers/chat.py:165-188 | after the guards, the file exists under the upload folder with the returned name |
| Chat.SendMessage | routers/chat.py:51-65 | an unknown room stores nothing; otherwise exactly one message is appended and `last_message_at` becomes now |
| Chat.Recipients | routers/chat.py:69-71 | the relay targets are the connected participants other than the sender |
| Chat.RelayReachesRecipients | routers/chat.py:32-34 | a socket is written to exactly when its user is a recipient |
| Chat.RelayToTheOtherParticipant | routers/chat.py:69-79 | in a two-person room with both connected, only the other participant receives the message |
| Chat.OutsiderMessageStored | routers/chat.py:51-65 | a sender outside the room still gets the message stored, though the read guard refuses them |
| Chat.SentMessageIsRead | routers/chat.py:53-65 | a participant then reads exactly the earlier messages plus the new one, as a multiset; in the model's storage order the new one comes last |
| Chat.AttachmentIsServed | routers/chat.py:181-188 | an uploaded attachment is then served by the file download route under its returned name |
| Admin.CreateLog | routers/admin.py:22-48 | refused with 401 exactly when not authorised; an authorised row whose body user id names no user fails with the global 500, because `user_id` is a foreign key (models/log.py:17); otherwise the stored row copies level, message and context, is stamped with now, and carries the body user's id, which is absent when the body has no user or a user without an id |
| Admin.Authorized | routers/admin.py:31-34 | loopback requests, and otherwise requests carrying a body user or the configured key, may write (the body user is client-supplied and not authenticated) |
| Admin.BodyUserWithoutIdAccepted | routers/admin.py:26-43 | any remote client that sends a user object without an id is accepted without credentials, and the row stores no user |
| Admin.LoopbackNeedsNoCredentials | routers/admin.py:31-37 | loopback requests are always accepted; others with neither a user nor the key get 401 |
| Admin.Where | routers/admin.py:61-65 | a `.where` keeps exactly the rows passing its test |
| Admin.MatchesFilters | routers/admin.py:60-65 | a row passes when its level equals a non-empty level filter and its timestamp lies within the given bounds, both inclusive |
| Admin.GetLogs | routers/admin.py:51-66 | admins only; returns exactly the stored rows matching every filter given, with inclusive bounds |
| Admin.NoFilterReturnsAll | routers/admin.py:59-66 | no filter, or an empty level, returns every row |
| Admin.FiltersAreConjunctive | routers/admin.py:60-65 | the result for all filters is the intersection of the results for each one |
| Admin.PointWindow | routers/admin.py:62-65 | equal bounds return exactly the rows stamped at that instant |
| Admin.CreatedLogIsListed | routers/admin.py:39-48 | a row just written is listed to an administrator with no filter and under its own level and timestamp |
| Admin.UnknownBodyUserGets500 | routers/admin.py:39-46 | a body user id naming no user is refused with the global 500 at the commit, from the loopback address as from anywhere else |
| Files.ExtensionOf | routers/files.py:24 | the extension has no '.', and a name without '.' is judged whole, lowered |
| Files.ExtensionIgnoresCase | routers/files.py:24-25 | the allow-list check gives the same answer for a name and its lower case |
| Files.UpperCaseExtensionAccepted | routers/files.py:24-25 | "A.PNG" passes |
| Files.LastExtensionCounts | routers/files.py:24-25 | only the last extension counts: "photo.png.exe" is refused |
| Files.NameWithoutDotJudgedWhole | routers/files.py:24-25 | "JPEG" passes as a whole-name extension |
| Files.PictureIsWebp | routers/files.py:24-32 | the saved picture's own extension passes the allow-list, whatever the upload was |
| Files.PictureName | routers/files.py:32 | the saved name starts with the uuid and its extension is "webp" |
| Files.SetPicture | routers/files.py:33-37 | the picture file exists under the upload folder and the caller's pfp names it; nothing else changes |
| Files.UpdateProfilePicture | routers/files.py:18-43 | an extension not in the allow-list gives 400; an undecodable image gives 500; otherwise the picture is saved and set |
| Files.GetFile | routers/files.py:46-52 | "." and ".." name existing directories, so `FileResponse` fails and the client gets a 500; any other name is served exactly when the joined path is a stored file, otherwise 404 "File not found" |
| Files.UploadedPictureIsServed | routers/files.py:32-52 | a picture just uploaded can be fetched by the returned name |
| Text.StripEmptyIffBlank | routers/users.py:37-42 | `not s.strip()` holds exactly for all-whitespace strings |
| Text.StripPrefixOccurrences | dependencies.py:67 | removing every "Bearer " from "Bearer " + t gives back t when t contains none |
| Text.ReplaceAll | dependencies.py:67 | replacing by the empty string never lengthens the text, and a same-length replacement keeps its length |
| Text.ReplaceAbsent | dependencies.py:67 | text with no occurrence of the pattern is left as it is |
| Text.AfterLast | routers/files.py:24 | `split(c)[-1]` has no c, is a suffix of the input, and follows a c unless it is the whole input |

## Left out

- Image work is left out: PIL decoding, resizing and WebP encoding (routers/files.py:28-35) are foreign library calls. `imageOk` stands for whether decoding succeeds.
- Disk writes (routers/chat.py:185-186, routers/files.py:35) and the temporary-file sweeper are left out. A file's existence is an element of `Store.files`, which holds regular files only; the only directories modelled are the upload folder and its parent, reached through "." and "..".
- JWT, bcrypt and TOTP are left out. They are oracle parameters (`encode`, `decode`, `verify`, `hash`, `totp`); the auth.security module is not part of this model.
- Redis is left out, both the response cache (cache.py) and the `clear_cache` handler (routers/admin.py:68-78): it is an external service. `rate_limit` takes the count Redis returned, or `None` when the call raised.
- SMTP delivery is left out (services/email.py): only its boolean result `sent` is modelled.
- Random verification codes and UUIDs are left out: they are parameters, and the model places no constraint on them.
- The websocket receive loop, socket transport, concurrency and commit mechanics are left out (routers/chat.py:38-86). One message frame is the unit modelled.
- Engagement arithmetic is over `real`, not IEEE doubles.
- `Engagement.Decay` and `Engagement.PostScore` require `1 + hours/24 != 0`. For a post dated exactly one day ahead the source divides by zero. `Social.LikePost` returns 500 in that case.
- Engagement.PostScore: the age is `now - date` on one clock. The source reads `post.date`, a naive local `datetime.now()` value, as UTC and subtracts it from the UTC clock (services/engagement.py:21), so the model assumes the server's local time is UTC. On a host at UTC+h every age would be off by h hours.
- Chat.CreateChatRoom: the 500 for a room with oneself follows from the participant table's composite primary key (models/chat.py:22-25). The list `[current_user, other_user]` names one user twice, so the commit repeats a key; the ORM flush itself is not modelled.
- Times are whole seconds; the source's datetimes have microseconds.
- Routing is left out:
  - `GET /posts/feed` is shadowed by `GET /posts/{post_id}`, which is declared first;
  - the chat router is never mounted (main.py:108-114);
  - the `rate_limit` dependency on `POST /posts` is wired through a lambda returning an un-awaited iterator, so `Posts.CreatePost` does not consult it.
- ORM cascades are left out: `Posts.DeletePost` removes only the post row. Link rows and interactions referring to it are not modelled.
- `Text.Lower` and `Files.ExtensionOf` lower only ASCII letters. Python's `str.lower` also maps other scripts; no such mapping produces the ASCII letters of the allow-list.
- Posts.CreatePost: the `date` default (models/post.py:10) is `datetime.now()` evaluated once at import, so the model takes one per-process instant `loaded` for every post rather than a per-row creation time. Posts made by one process tie on date, so the feed order among them is the tie-break below, and the decay ages them from process start. The Post model with the counters the handlers use is not part of the visible source; the model assumes it has the same default.
- Records.Pick: `.first()` on an unordered query is a fixed choice among the rows carrying a username. Usernames are not unique (models/user.py:4, and `update_own_user` at routers/users.py:89-102 checks no duplicate), so with duplicates two requests could see different rows. `Social.FollowThenUnfollow` and `Social.UnfollowThenFollow` rely on the choice being stable for an unchanged candidate set; with a unique name the choice is forced (`Dependencies.UniqueNameIsFound`).
- Chat.GetMessages: `ChatRoom.messages` has no `order_by` (models/chat.py:16), so the database fixes the order; the model returns storage order. `Chat.SentMessageIsRead` states the order-free multiset fact alongside the ordered one.
- Auth.LoginCookieIdentifiesUser: the expiry check inside `jwt.decode` is a premise (`DecodesUntilExpiry`: accepted exactly while the request instant is before `exp`), since the JWT library is not part of this model.
- Posts.Before: feed ties between equal dates are broken by id. The SQL leaves them to the database.
- Not part of the modelled core: `get_users_me`, `update_own_user`, `delete_user_me`, `get_user_by_username`, `get_user_posts` and `get_user_likes` (routers/users.py:81-137). They are plain reads or ORM updates with no rule beyond a 404.
- Also not part of the modelled core: `get_own_posts` and `get_post` (routers/posts.py:34-48), `logout` (routers/auth.py:52-57) and `get_chat_rooms` (routers/chat.py:122-134). `get_chat_rooms` is a participant-filtered query ordered by last message.
- The `update_last_active` middleware and request logging (dependencies.py:109-158) are framework wiring with no effect on any handler's result.

## Findings

| source | as written | input that shows it | evidently intended | confidence | as-written member | corrected member |
|---|---|---|---|---|---|---|
| dependencies.py:38, 76-79 | `get_user` reports an unknown name with `False`, so `if user is None` never fires. `get_current_active_user` then reads `.disabled` off `False`, and the global handler answers 500. | a validly signed cookie whose "sub" names a deleted user | 401 "Could not validate credentials" | high, not executed | Dependencies.UnknownSubjectGets500 | Dependencies.UnknownSubjectGets401 |
| dependencies.py:103-107 | the 429 raised inside the `try` is caught by its own `except Exception`, so no request is ever refused | a bucket count of `limit + 1` | the 429 reaches the client | high, not executed | Dependencies.RateLimitNeverRefuses | Dependencies.RateLimitIntended |

=== FILE: admin.dfy ===
/** The admin router: who may write a log row, and the log query
    (routers/admin.py). */
module Admin {
  import opened Wrappers
  import opened Records
  import Dependencies

  /** The loopback address whose requests need no credentials. */
  const LOOPBACK: string := "127.0.0.1"

  /** The fields a client supplies for a new log row. */
  datatype LogInput = LogInput(level: string, message: string, context: Option<string>)

  /** A request may write a log when it comes from the loopback address, or
      else when it carries a user or the configured API key. `bodyUser` is
      the optional `current_user` parameter, which has no `Depends`: FastAPI
      reads it from the request body, so the client supplies it and nothing
      authenticates it. The outer `Some` is a user object being present, the
      inner value its `id`, which the schema lets be absent. */
  predicate Authorized(host: string, bodyUser: Option<Option<UserId>>, apiKey: Option<string>, key: string) {
    if host == LOOPBACK then true
    else bodyUser.Some? || apiKey == Some(key)
  }

  /** The `user_id` stored on a new row: the body user's id, or none. */
  function StoredUserId(bodyUser: Option<Option<UserId>>): Option<UserId> {
    if bodyUser.Some? then bodyUser.value else None
  }

  /** The body user's id names no stored user. `log.user_id` is a foreign
      key to `user.id` (models/log.py:17), so the commit of such a row is
      refused by the database. */
  predicate UnknownBodyUser(s: Store, bodyUser: Option<Option<UserId>>) {
    StoredUserId(bodyUser).Some? && StoredUserId(bodyUser).value !in s.users
  }

  /** `create_log`; `key` is the deployment's `API_KEY`, `id` the key the
      database assigns and `now` the default timestamp. An authorised row
      whose user id names no user fails at the commit, and the integrity
      error reaches the global handler as a 500. */
  function CreateLog(s: Store, host: string, input: LogInput, bodyUser: Option<Option<UserId>>,
                     apiKey: Option<string>, key: string, id: LogId, now: Time): (r: Result<(Store, LogEntry)>)
    requires id !in s.logs
    ensures r.Err? <==> !Authorized(host, bodyUser, apiKey, key) || UnknownBodyUser(s, bodyUser)
    ensures !Authorized(host, bodyUser, apiKey, key) ==> r == Err(HttpError(401, "Authentication required"))
    ensures Authorized(host, bodyUser, apiKey, key) && UnknownBodyUser(s, bodyUser)
            ==> r == Err(Dependencies.UNEXPECTED_ERROR)
    ensures r.Ok? ==>
      var (t, e) := r.value;
      && e.level == input.level && e.message == input.message && e.context == input.context
      && (bodyUser.Some? ==> e.userId == bodyUser.value)
      && (bodyUser.None? ==> e.userId.None?)
      && (e.userId.Some? ==> e.userId.value in s.users)
      && e.timestamp == now && e.id == id
      && t == s.(logs := t.logs)
      && t.logs.Keys == s.logs.Keys + {id}
      && t.logs[id] == e
      && (forall k :: k in s.logs ==> t.logs[k] == s.logs[k])
  {
    if !Authorized(host, bodyUser, apiKey, key) then Err(HttpError(401, "Authentication required"))
    else if UnknownBodyUser(s, bodyUser) then Err(Dependencies.UNEXPECTED_ERROR)
    else
      var e := LogEntry(id, input.level, input.message, now, input.context, StoredUserId(bodyUser));
      Ok((s.(logs := s.logs[id := e]), e))
  }

  /** From the loopback address every request is accepted, whatever it
      carries; from anywhere else, a request with neither a user nor the key
      is refused. */
  lemma LoopbackNeedsNoCredentials(s: Store, input: LogInput, apiKey: Option<string>, key: string,
                                   id: LogId, now: Time, host: string)
    requires id !in s.logs
    ensures CreateLog(s, LOOPBACK, input, None, apiKey, key, id, now).Ok?
    ensures host != LOOPBACK && apiKey != Some(key)
            ==> CreateLog(s, host, input, None, apiKey, key, id, now) == Err(HttpError(401, "Authentication required"))
  {
  }

  /** Any remote client can write a row without credentials by sending a
      user object with no id in the body: it is accepted and the row is
      stored with no user. */
  lemma BodyUserWithoutIdAccepted(s: Store, host: string, input: LogInput, apiKey: Option<string>,
                                  key: string, id: LogId, now: Time)
    requires id !in s.logs
    ensures CreateLog(s, host, input, Some(None), apiKey, key, id, now).Ok?
    ensures CreateLog(s, host, input, Some(None), apiKey, key, id, now).value.1.userId.None?
  {
  }

  /** A body user naming no stored user gets the 500 from the foreign key,
      from the loopback address as from anywhere else. */
  lemma UnknownBodyUserGets500(s: Store, host: string, input: LogInput, u: UserId,
                               apiKey: Option<string>, key: string, id: LogId, now: Time)
    requires id !in s.logs && u !in s.users
    ensures CreateLog(s, host, input, Some(Some(u)), apiKey, key, id, now) == Err(Dependencies.UNEXPECTED_ERROR)
    ensures CreateLog(s, LOOPBACK, input, Some(Some(u)), apiKey, key, id, now) == Err(Dependencies.UNEXPECTED_ERROR)
  {
  }

  /** One row against the filters `get_logs` was given. An empty level is
      falsy, so it filters nothing; a date is always truthy. Both date bounds
      are inclusive. */
  predicate MatchesFilters(e: LogEntry, level: Option<string>, from: Option<Time>, to: Option<Time>) {
    && (level.None? || level.value == "" || e.level == level.value)
    && (from.None? || from.value <= e.timestamp)
    && (to.None? || e.timestamp <= to.value)
  }

  /** `select(Log)`, before any filter. */
  function AllLogs(s: Store): set<LogEntry> {
    set k | k in s.logs :: s.logs[k]
  }

  /** One `.where` clause applied to a query. */
  function Where(q: set<LogEntry>, keep: LogEntry -> bool): (r: set<LogEntry>)
    ensures forall e :: e in r <==> e in q && keep(e)
  {
    set e | e in q && keep(e)
  }

  /** The query `get_logs` builds, one optional `.where` at a time. */
  function LogQuery(s: Store, level: Option<string>, from: Option<Time>, to: Option<Time>): set<LogEntry> {
    var q0 := AllLogs(s);
    var q1 := if level.Some? && level.value != "" then Where(q0, (e: LogEntry) => e.level == level.value) else q0;
    var q2 := if from.Some? then Where(q1, (e: LogEntry) => e.timestamp >= from.value) else q1;
    if to.Some? then Where(q2, (e: LogEntry) => e.timestamp <= to.value) else q2
  }

  /** `get_logs`: administrators only; then every stored row that passes all
      the filters given, and no other. */
  function GetLogs(s: Store, me: UserId, level: Option<string>, from: Option<Time>, to: Option<Time>): (r: Result<set<LogEntry>>)
    requires me in s.users
    ensures !s.users[me].isAdmin ==> r == Err(HttpError(403, "Admin access required"))
    ensures r.Ok? <==> s.users[me].isAdmin
    ensures r.Ok? ==> forall e :: e in r.value <==> (exists k :: k in s.logs && s.logs[k] == e) && MatchesFilters(e, level, from, to)
  {
    var _ :- Dependencies.AdminOnly(s, me);
    Ok(LogQuery(s, level, from, to))
  }

  /** With no filter, or only an empty level, an administrator sees every row. */
  lemma NoFilterReturnsAll(s: Store, me: UserId, level: Option<string>)
    requires me in s.users && s.users[me].isAdmin
    requires level.None? || level == Some("")
    ensures GetLogs(s, me, level, None, None) == Ok(AllLogs(s))
  {
  }

  /** The filters are conjunctive: the result for all of them is the
      intersection of the results for each one alone. */
  lemma FiltersAreConjunctive(s: Store, me: UserId, level: Option<string>, from: Option<Time>, to: Option<Time>)
    requires me in s.users && s.users[me].isAdmin
    ensures GetLogs(s, me, level, from, to).value
         == GetLogs(s, me, level, None, None).value
          * GetLogs(s, me, None, from, None).value
          * GetLogs(s, me, None, None, to).value
  {
  }

  /** A one-instant window returns exactly the rows stamped at that instant. */
  lemma PointWindow(s: Store, me: UserId, t: Time, k: LogId)
    requires me in s.users && s.users[me].isAdmin && k in s.logs
    ensures s.logs[k] in GetLogs(s, me, None, Some(t), Some(t)).value <==> s.logs[k].timestamp == t
  {
  }

  /** A row just written is listed to an administrator, both unfiltered and
      under its own level and the instant it was stamped. */
  lemma CreatedLogIsListed(s: Store, host: string, input: LogInput, bodyUser: Option<Option<UserId>>,
                           apiKey: Option<string>, key: string, id: LogId, now: Time, me: UserId)
    requires id !in s.logs && Authorized(host, bodyUser, apiKey, key) && !UnknownBodyUser(s, bodyUser)
    requires me in s.users && s.users[me].isAdmin
    ensures var (t, e) := CreateLog(s, host, input, bodyUser, apiKey, key, id, now).value;
            && me in t.users
            && e in GetLogs(t, me, None, None, None).value
            && e in GetLogs(t, me, Some(input.level), Some(now), Some(now)).value
  {
    var (t, e) := CreateLog(s, host, input, bodyUser, apiKey, key, id, now).value;
    assert t.logs[id] == e;
  }
}

=== FILE: auth.dfy ===
/** The authentication router: login cookies, two-factor set-up and email
    verification (routers/auth.py). */
module Auth {
  import opened Wrappers
  import opened Records
  import opened Text
  import opened Dependencies
  import Users
  import Config

  /** The claims `login_for_access_token` signs: the subject and the expiry. */
  datatype Claims = Claims(sub: string, exp: Time)

  /** The oracle standing for `jwt.encode` with the server's key. */
  type Encoder = Claims -> string

  /** The cookie `set_cookie` attaches to the login response. */
  datatype Cookie = Cookie(name: string, value: string, httpOnly: bool, secure: bool,
                           sameSite: string, maxAge: int)

  const LOGIN_ERROR: HttpError := HttpError(401, "Incorrect username or password")

  /** Both the token and the cookie live this many seconds. */
  const TOKEN_LIFETIME: int := Config.ACCESS_TOKEN_EXPIRE_MINUTES * Config.SECONDS_PER_MINUTE

  /** `login_for_access_token`: a cookie holding "Bearer " and a token for the
      authenticated user's name, or the 401 when authentication fails. */
  ghost function Login(s: Store, name: string, password: string, verify: (string, string) -> bool,
                       encode: Encoder, now: Time): (r: Result<Cookie>)
    ensures r.Err? <==> AuthenticateUser(s, name, password, verify).None?
    ensures r.Err? ==> r.error == LOGIN_ERROR
    ensures r.Ok? ==>
      && r.value.name == "access_token"
      && r.value.value == BEARER + encode(Claims(name, TokenExpiry(now, Some(TOKEN_LIFETIME))))
      && r.value.httpOnly && r.value.secure && r.value.sameSite == "Lax"
      && r.value.maxAge == TokenExpiry(now, Some(TOKEN_LIFETIME)) - now
      && r.value.maxAge == 1800
  {
    match AuthenticateUser(s, name, password, verify)
    case None => Err(LOGIN_ERROR)
    case Some(id) =>
      var token := encode(Claims(s.users[id].username, TokenExpiry(now, Some(TOKEN_LIFETIME))));
      Ok(Cookie("access_token", BEARER + token, true, true, "Lax", Config.ACCESS_TOKEN_EXPIRE_MINUTES * 60))
  }

  /** The decoder in use at instant `later` treats the login token as
      `jwt.decode` does: it yields the subject while `later` is before the
      token's `exp` claim, and raises (`None`) from then on. */
  predicate DecodesUntilExpiry(decode: Decoder, encode: Encoder, c: Claims, later: Time) {
    decode(encode(c)) == (if later < c.exp then Some(Some(c.sub)) else None)
  }

  /** The cookie from a successful login identifies the same user to a
      request made at `later` until the token's expiry, `TOKEN_LIFETIME`
      seconds after login; from then on the request is refused with the
      credentials error. The token must contain no "Bearer " of its own. */
  lemma LoginCookieIdentifiesUser(s: Store, name: string, password: string, verify: (string, string) -> bool,
                                  encode: Encoder, decode: Decoder, now: Time, later: Time)
    requires Login(s, name, password, verify, encode, now).Ok?
    requires var c := Claims(name, TokenExpiry(now, Some(TOKEN_LIFETIME)));
             !Contains(encode(c), BEARER) && DecodesUntilExpiry(decode, encode, c, later)
    ensures var id := AuthenticateUser(s, name, password, verify).value;
            var cookie := Login(s, name, password, verify, encode, now).value.value;
            && (later < now + TOKEN_LIFETIME ==>
                  && GetCurrentUserChecked(s, Some(cookie), decode) == Ok(id)
                  && (CurrentActiveUser(s, Some(cookie), decode).Ok? <==> !s.users[id].disabled))
            && (later >= now + TOKEN_LIFETIME ==>
                  CurrentActiveUser(s, Some(cookie), decode) == Err(CREDENTIALS_ERROR))
  {
    var c := Claims(name, TokenExpiry(now, Some(TOKEN_LIFETIME)));
    StripPrefixOccurrences(BEARER, encode(c));
  }

  /** `enable_2fa`: store a freshly generated secret (`secret` stands for
      `generate_secret`) without switching two-factor on; that waits for a
      verified code. */
  function EnableTwoFactor(s: Store, me: UserId, secret: string): (r: Result<(Store, string)>)
    requires me in s.users
    ensures r.Err? <==> s.users[me].twoFactorEnabled
    ensures r.Err? ==> r.error == HttpError(400, "2FA already enabled")
    ensures r.Ok? ==> && r.value.1 == secret
                      && OnlyUserChanged(s, r.value.0, me)
                      && r.value.0.users[me] == s.users[me].(twoFactorSecret := Some(secret))
  {
    if s.users[me].twoFactorEnabled then Err(HttpError(400, "2FA already enabled"))
    else Ok((s.(users := s.users[me := s.users[me].(twoFactorSecret := Some(secret))]), secret))
  }

  /** `verify_2fa`; `totp` stands for `TotpService.verify_code`. An absent or
      empty secret counts as not set up. */
  function VerifyTwoFactor(s: Store, me: UserId, code: string, totp: (string, string) -> bool): (r: Result<Store>)
    requires me in s.users
    ensures (s.users[me].twoFactorSecret.None? || s.users[me].twoFactorSecret == Some(""))
            ==> r == Err(HttpError(400, "2FA not set up"))
    ensures r.Ok? <==> s.users[me].twoFactorSecret.Some? && s.users[me].twoFactorSecret.value != ""
                       && totp(s.users[me].twoFactorSecret.value, code)
    ensures r.Err? ==> r.error.status == 400
    ensures r.Ok? ==> OnlyUserChanged(s, r.value, me)
                      && r.value.users[me] == s.users[me].(twoFactorEnabled := true)
  {
    var secret := s.users[me].twoFactorSecret;
    if secret.None? || secret.value == "" then Err(HttpError(400, "2FA not set up"))
    else if totp(secret.value, code) then
      Ok(s.(users := s.users[me := s.users[me].(twoFactorEnabled := true)]))
    else Err(HttpError(400, "Invalid verification code"))
  }

  /** Enabling with a non-empty secret and then presenting a code the
      authenticator accepts turns two-factor on, after which enabling again is
      refused. */
  lemma EnableThenVerifyTwoFactor(s: Store, me: UserId, secret: string, code: string,
                                  totp: (string, string) -> bool, secret2: string)
    requires me in s.users && !s.users[me].twoFactorEnabled
    requires secret != "" && totp(secret, code)
    ensures var t := EnableTwoFactor(s, me, secret).value.0;
            && VerifyTwoFactor(t, me, code, totp).Ok?
            && VerifyTwoFactor(t, me, code, totp).value.users[me].twoFactorEnabled
            && EnableTwoFactor(VerifyTwoFactor(t, me, code, totp).value, me, secret2)
               == Err(HttpError(400, "2FA already enabled"))
  {
  }

  /** A verification code is pending: one is stored and it is not empty. */
  predicate PendingCode(u: User) {
    u.verificationCode.Some? && u.verificationCode.value != ""
  }

  /** `verify_email`, checking in the source's order. The expiry is read
      without a `None` check, so a pending code with no expiry raises and the
      global handler answers 500. The comparison is strict: a code is still
      good at the instant it expires. */
  function VerifyEmail(s: Store, me: UserId, code: string, now: Time): (r: Result<Store>)
    requires me in s.users
    ensures s.users[me].emailVerified ==> r == Err(HttpError(400, "Email already verified"))
    ensures !s.users[me].emailVerified && (s.users[me].verificationCode.None? || s.users[me].verificationCode == Some(""))
            ==> r == Err(HttpError(400, "No verification pending"))
    ensures !s.users[me].emailVerified && PendingCode(s.users[me]) && s.users[me].verificationCodeExpires.None?
            ==> r == Err(UNEXPECTED_ERROR)
    ensures !s.users[me].emailVerified && PendingCode(s.users[me]) && s.users[me].verificationCodeExpires.Some?
            && s.users[me].verificationCodeExpires.value < now
            ==> r == Err(HttpError(400, "Verification code expired"))
    ensures !s.users[me].emailVerified && PendingCode(s.users[me]) && s.users[me].verificationCodeExpires.Some?
            && now <= s.users[me].verificationCodeExpires.value && s.users[me].verificationCode.value != code
            ==> r == Err(HttpError(400, "Invalid verification code"))
    ensures r.Ok? <==> && !s.users[me].emailVerified
                       && s.users[me].verificationCode == Some(code) && code != ""
                       && s.users[me].verificationCodeExpires.Some?
                       && now <= s.users[me].verificationCodeExpires.value
    ensures r.Ok? ==> && OnlyUserChanged(s, r.value, me)
                      && r.value.users[me] == s.users[me].(emailVerified := true, verificationCode := None,
                                                           verificationCodeExpires := None)
  {
    var u := s.users[me];
    if u.emailVerified then Err(HttpError(400, "Email already verified"))
    else if u.verificationCode.None? || u.verificationCode.value == "" then Err(HttpError(400, "No verification pending"))
    else if u.verificationCodeExpires.None? then Err(UNEXPECTED_ERROR)
    else if u.verificationCodeExpires.value < now then Err(HttpError(400, "Verification code expired"))
    else if u.verificationCode.value != code then Err(HttpError(400, "Invalid verification code"))
    else
      Ok(s.(users := s.users[me := u.(emailVerified := true, verificationCode := None,
                                      verificationCodeExpires := None)]))
  }

  /** A code works once: verifying again is refused. */
  lemma VerifyEmailOnce(s: Store, me: UserId, code: string, now: Time, code2: string, now2: Time)
    requires me in s.users && VerifyEmail(s, me, code, now).Ok?
    ensures VerifyEmail(VerifyEmail(s, me, code, now).value, me, code2, now2)
            == Err(HttpError(400, "Email already verified"))
  {
  }

  /** `resend_verification`: a new code valid for the configured window. The
      change is only committed when the email went out (`sent`); otherwise
      the store is left as it was. */
  function ResendVerification(s: Store, me: UserId, code: string, now: Time, sent: bool): (r: Result<Store>)
    requires me in s.users
    ensures s.users[me].emailVerified ==> r == Err(HttpError(400, "Email already verified"))
    ensures !s.users[me].emailVerified && !sent ==> r == Err(HttpError(500, "Failed to send verification email"))
    ensures r.Ok? <==> !s.users[me].emailVerified && sent
    ensures r.Ok? ==> && OnlyUserChanged(s, r.value, me)
                      && r.value.users[me] == s.users[me].(verificationCode := Some(code),
                           verificationCodeExpires := Some(now + Config.VERIFICATION_CODE_EXPIRE_MINUTES * Config.SECONDS_PER_MINUTE))
  {
    var u := s.users[me];
    if u.emailVerified then Err(HttpError(400, "Email already verified"))
    else
      var u' := u.(verificationCode := Some(code),
                   verificationCodeExpires := Some(now + Config.VERIFICATION_CODE_EXPIRE_MINUTES * Config.SECONDS_PER_MINUTE));
      if sent then Ok(s.(users := s.users[me := u']))
      else Err(HttpError(500, "Failed to send verification email"))
  }

  /** A freshly registered user who presents the emailed code within the
      window is verified; after the window the code is expired. */
  lemma RegisterThenVerify(s: Store, form: Users.UserCreate, hash: string -> string, code: string,
                           id: UserId, now: Time, later: Time)
    requires id !in s.users && code != ""
    requires Users.ValidateUser(s, form) == Pass
    requires now <= later
    ensures var t := Users.CreateUser(s, form, hash, code, id, now, true).value;
            && (later <= now + 1800 ==> VerifyEmail(t, id, code, later).Ok?)
            && (later > now + 1800 ==> VerifyEmail(t, id, code, later) == Err(HttpError(400, "Verification code expired")))
  {
  }

  /** After a resend, the new code verifies within the window and a
      different one is rejected. */
  lemma ResendThenVerify(s: Store, me: UserId, code: string, now: Time, later: Time, other: string)
    requires me in s.users && ResendVerification(s, me, code, now, true).Ok?
    requires code != "" && now <= later <= now + 1800 && other != code
    ensures var t := ResendVerification(s, me, code, now, true).value;
            && VerifyEmail(t, me, code, later).Ok?
            && VerifyEmail(t, me, other, later) == Err(HttpError(400, "Invalid verification code"))
  {
  }
}

=== FILE: chat.dfy ===
/** Private chat: the connection registry, rooms, message relay and chat
    attachments (routers/chat.py). */
module Chat {
  import opened Wrappers
  import opened Records
  import opened Text
  import Config
  import Files
  import Dependencies

  /** An open websocket, known only by identity. */
  type Socket = int

  /** `ConnectionManager.active_connections`: at most one socket per user. */
  type Connections = map<UserId, Socket>

  /** `connect`: the user's latest socket replaces any earlier one. */
  function Connect(c: Connections, uid: UserId, ws: Socket): (r: Connections)
    ensures uid in r && r[uid] == ws
    ensures r.Keys == c.Keys + {uid}
    ensures forall u :: u in c && u != uid ==> r[u] == c[u]
  {
    c[uid := ws]
  }

  /** `disconnect`: forget the user's socket; nothing to do when there is none. */
  function Disconnect(c: Connections, uid: UserId): (r: Connections)
    ensures uid !in r
    ensures r.Keys == c.Keys - {uid}
    ensures forall u :: u in r ==> r[u] == c[u]
    ensures uid !in c ==> r == c
  {
    if uid in c then c - {uid} else c
  }

  /** `send_message`: the socket a payload for `uid` goes to, or none, in which
      case the message is silently dropped. */
  function SendTarget(c: Connections, uid: UserId): (r: Option<Socket>)
    ensures r.Some? <==> uid in c
    ensures r.Some? ==> r.value == c[uid]
  {
    if uid in c then Some(c[uid]) else None
  }

  /** Reconnecting keeps only the latest socket. */
  lemma ConnectOverwrites(c: Connections, uid: UserId, ws1: Socket, ws2: Socket)
    ensures Connect(Connect(c, uid, ws1), uid, ws2) == Connect(c, uid, ws2)
    ensures SendTarget(Connect(Connect(c, uid, ws1), uid, ws2), uid) == Some(ws2)
  {
  }

  /** Connecting a user not yet connected and then disconnecting them
      restores the registry. */
  lemma ConnectThenDisconnect(c: Connections, uid: UserId, ws: Socket)
    requires uid !in c
    ensures Disconnect(Connect(c, uid, ws), uid) == c
  {
  }

  /** The rooms in which both users hold a participant row: the rooms the
      `having count() == 2` query over rows for `{me, other}` finds. */
  function RoomsWithBoth(s: Store, me: UserId, other: UserId): (ids: set<RoomId>)
    ensures forall rid :: rid in ids <==> rid in s.rooms && |s.rooms[rid].Participants() * {me, other}| == 2
  {
    set rid | rid in s.rooms && |s.rooms[rid].Participants() * {me, other}| == 2
  }

  /** Only a room holding both of two different users counts twice; a user
      asking for a room with themself never matches an existing room. */
  lemma RoomsWithBothMeansBoth(s: Store, me: UserId, other: UserId, rid: RoomId)
    requires rid in s.rooms
    ensures rid in RoomsWithBoth(s, me, other)
            <==> me != other && me in s.rooms[rid].Participants() && other in s.rooms[rid].Participants()
  {
    var both := s.rooms[rid].Participants() * {me, other};
    if me == other {
      if me in s.rooms[rid].Participants() {
        assert both == {me};
      } else {
        assert both == {};
      }
    } else if me in both && other in both {
      assert both == {me, other};
    } else if me in both {
      assert both == {me};
    } else if other in both {
      assert both == {other};
    } else {
      assert both == {};
    }
  }

  /** No existing room is ever found for a user paired with themself. */
  lemma NoRoomWithOneself(s: Store, u: UserId)
    ensures RoomsWithBoth(s, u, u) == {}
  {
    forall rid | rid in s.rooms ensures rid !in RoomsWithBoth(s, u, u) {
      RoomsWithBothMeansBoth(s, u, u, rid);
    }
  }

  /** A new room with the two participant rows, both read up to now. */
  function NewRoom(id: RoomId, me: UserId, other: UserId, now: Time): (room: ChatRoom)
    ensures room.Participants() == {me, other}
    ensures room.messages == [] && room.id == id
  {
    ChatRoom(id, now, now, map[me := now, other := now], [])
  }

  /** `create_chat_room`: an existing room shared with `other` is returned as
      it is; otherwise the other user must exist and a room with exactly the
      two of them is added under the fresh key `id`. A room with oneself is
      never found by the count-of-two query, and its participant list names
      the same user twice, so the commit writes the same composite key into
      the participant table twice; the integrity error reaches the global
      handler as a 500. */
  ghost function CreateChatRoom(s: Store, me: UserId, other: UserId, id: RoomId, now: Time): (r: Result<(Store, RoomId)>)
    requires me in s.users && id !in s.rooms
    ensures RoomsWithBoth(s, me, other) != {} ==> r.Ok? && r.value.0 == s && r.value.1 in RoomsWithBoth(s, me, other)
    ensures RoomsWithBoth(s, me, other) == {} && other !in s.users ==> r == Err(HttpError(404, "User not found"))
    ensures me == other ==> r == Err(Dependencies.UNEXPECTED_ERROR)
    ensures RoomsWithBoth(s, me, other) == {} && other in s.users && me != other ==>
              r.Ok? && r.value.1 == id
              && r.value.0 == s.(rooms := r.value.0.rooms)
              && r.value.0.rooms.Keys == s.rooms.Keys + {id}
              && (forall k :: k in s.rooms ==> r.value.0.rooms[k] == s.rooms[k])
              && r.value.0.rooms[id].Participants() == {me, other}
              && r.value.0.rooms[id].messages == []
  {
    NoRoomWithOneself(s, me);
    var existing := RoomsWithBoth(s, me, other);
    if existing != {} then Ok((s, Pick(existing)))
    else if other !in s.users then Err(HttpError(404, "User not found"))
    else if me == other then Err(Dependencies.UNEXPECTED_ERROR)
    else Ok((s.(rooms := s.rooms[id := NewRoom(id, me, other, now)]), id))
  }

  /** Once a room for two users is added to a store with none, it is the
      only room holding both, whichever of them asks. */
  lemma OnlyNewRoomHoldsBoth(s: Store, t: Store, me: UserId, other: UserId, id: RoomId, a: UserId, b: UserId)
    requires me != other && RoomsWithBoth(s, me, other) == {}
    requires t.rooms.Keys == s.rooms.Keys + {id}
    requires forall k :: k in s.rooms && k != id ==> t.rooms[k] == s.rooms[k]
    requires t.rooms[id].Participants() == {me, other}
    requires (a == me && b == other) || (a == other && b == me)
    ensures RoomsWithBoth(t, a, b) == {id}
  {
    forall rid | rid in t.rooms ensures (rid in RoomsWithBoth(t, a, b) <==> rid == id) {
      RoomsWithBothMeansBoth(t, a, b, rid);
      if rid != id {
        RoomsWithBothMeansBoth(s, me, other, rid);
      }
    }
  }

  /** Asking again for a room just created, from either side, finds that room
      and creates nothing. */
  lemma CreateChatRoomFindsExisting(s: Store, me: UserId, other: UserId, id: RoomId, now: Time,
                                    id2: RoomId, now2: Time)
    requires me in s.users && other in s.users && me != other && id !in s.rooms
    requires RoomsWithBoth(s, me, other) == {}
    ensures var t := CreateChatRoom(s, me, other, id, now).value.0;
            && id2 !in t.rooms
            ==> && CreateChatRoom(t, me, other, id2, now2) == Ok((t, id))
                && CreateChatRoom(t, other, me, id2, now2) == Ok((t, id))
  {
    var t := CreateChatRoom(s, me, other, id, now).value.0;
    if id2 !in t.rooms {
      OnlyNewRoomHoldsBoth(s, t, me, other, id, me, other);
      OnlyNewRoomHoldsBoth(s, t, me, other, id, other, me);
    }
  }

  /** The two guards `get_messages` and `upload_file` share: the room exists
      and the caller is one of its participants. */
  function ParticipantRoom(s: Store, me: UserId, rid: RoomId): (r: Result<ChatRoom>)
    ensures rid !in s.rooms ==> r == Err(HttpError(404, "Chat room not found"))
    ensures rid in s.rooms && me !in s.rooms[rid].Participants() ==> r == Err(HttpError(403, "Not a participant"))
    ensures r.Ok? <==> rid in s.rooms && me in s.rooms[rid].Participants()
    ensures r.Ok? ==> r.value == s.rooms[rid]
  {
    if rid !in s.rooms then Err(HttpError(404, "Chat room not found"))
    else if me !in s.rooms[rid].Participants() then Err(HttpError(403, "Not a participant"))
    else Ok(s.rooms[rid])
  }

  /** `get_messages`: the room's messages, after moving the caller's own
      `last_read_at` to now. The relationship declares no `order_by`, so the
      database fixes the row order; the model keeps a room's messages in the
      order they were stored. */
  function GetMessages(s: Store, me: UserId, rid: RoomId, now: Time): (r: Result<(Store, seq<Message>)>)
    ensures ParticipantRoom(s, me, rid).Err? ==> r == Err(ParticipantRoom(s, me, rid).error)
    ensures r.Ok? <==> ParticipantRoom(s, me, rid).Ok?
    ensures r.Ok? ==> r.value.0.rooms.Keys == s.rooms.Keys
    ensures r.Ok? ==>
      var room := s.rooms[rid];
      var room' := r.value.0.rooms[rid];
      && r.value.1 == room.messages
      && r.value.0 == s.(rooms := r.value.0.rooms)
      && r.value.0.rooms.Keys == s.rooms.Keys
      && (forall k :: k in s.rooms && k != rid ==> r.value.0.rooms[k] == s.rooms[k])
      && room'.Participants() == room.Participants()
      && room'.lastReadAt[me] == now
      && (forall u :: u in room.lastReadAt && u != me ==> room'.lastReadAt[u] == room.lastReadAt[u])
      && room' == room.(lastReadAt := room'.lastReadAt)
  {
    var room :- ParticipantRoom(s, me, rid);
    var room' := room.(lastReadAt := room.lastReadAt[me := now]);
    Ok((s.(rooms := s.rooms[rid := room']), room.messages))
  }

  /** The name an attachment is saved under: "chat_" and a fresh `uuid`,
      then the uploaded file's extension, which reads back off the saved
      name unchanged whatever the uuid contains. */
  function AttachmentName(uuid: string, filename: string): (name: string)
    ensures |name| > |"chat_" + uuid| && name[..|"chat_" + uuid|] == "chat_" + uuid
    ensures AfterLast(name, '.') == AfterLast(filename, '.')
  {
    var ext := AfterLast(filename, '.');
    var n := "chat_" + uuid + "." + ext;
    var d := |"chat_" + uuid|;
    assert n[d] == '.';
    assert n[d + 1..] == ext;
    AfterLastAt(n, '.', d);
    n
  }

  /** `upload_file`: after the room and participant guards, the bytes are
      written under the upload folder and the new name returned. */
  function UploadFile(s: Store, me: UserId, rid: RoomId, filename: string, uuid: string): (r: Result<(Store, string)>)
    ensures ParticipantRoom(s, me, rid).Err? ==> r == Err(ParticipantRoom(s, me, rid).error)
    ensures r.Ok? <==> ParticipantRoom(s, me, rid).Ok?
    ensures r.Ok? ==> && r.value.0 == s.(files := s.files + {PathJoin(Config.UPLOAD_FOLDER, r.value.1)})
                      && r.value.1 == AttachmentName(uuid, filename)
  {
    var _ :- ParticipantRoom(s, me, rid);
    var name := AttachmentName(uuid, filename);
    Ok((s.(files := s.files + {PathJoin(Config.UPLOAD_FOLDER, name)}), name))
  }

  /** One "message" frame on the websocket: store the message and stamp the
      room. A frame naming no room fails before the commit, and the handler
      closes the socket (`None`, nothing stored). The sender's membership of
      the room is not checked. */
  function SendMessage(s: Store, me: UserId, rid: RoomId, content: string, fileUrl: Option<string>,
                       mid: MessageId, now: Time): (r: Option<(Store, Message)>)
    ensures r.None? <==> rid !in s.rooms
    ensures r.Some? ==>
      var (t, m) := r.value;
      && m == Message(mid, rid, me, content, fileUrl, Sent, now)
      && t == s.(rooms := t.rooms)
      && t.rooms.Keys == s.rooms.Keys
      && (forall k :: k in s.rooms && k != rid ==> t.rooms[k] == s.rooms[k])
      && t.rooms[rid].messages == s.rooms[rid].messages + [m]
      && t.rooms[rid].lastMessageAt == now
      && t.rooms[rid] == s.rooms[rid].(messages := t.rooms[rid].messages, lastMessageAt := now)
  {
    if rid !in s.rooms then None
    else
      var m := Message(mid, rid, me, content, fileUrl, Sent, now);
      var room := s.rooms[rid];
      Some((s.(rooms := s.rooms[rid := room.(messages := room.messages + [m], lastMessageAt := now)]), m))
  }

  /** The users a stored message is pushed to: every other participant who is
      currently connected. */
  function Recipients(c: Connections, room: ChatRoom, sender: UserId): (r: set<UserId>)
    ensures forall u :: u in r <==> u in room.Participants() && u != sender && u in c
  {
    set u | u in room.Participants() && u != sender && u in c
  }

  /** The sockets the relay writes to are exactly those of the recipients. */
  lemma RelayReachesRecipients(c: Connections, room: ChatRoom, sender: UserId, u: UserId)
    ensures SendTarget(c, u).Some? && u in room.Participants() && u != sender <==> u in Recipients(c, room, sender)
  {
  }

  /** The sender never receives their own message, and a message in a room of
      two connected users reaches exactly the other one. */
  lemma RelayToTheOtherParticipant(c: Connections, room: ChatRoom, me: UserId, other: UserId)
    requires room.Participants() == {me, other} && me != other && me in c && other in c
    ensures Recipients(c, room, me) == {other}
    ensures me !in Recipients(c, room, me)
  {
    assert other in Recipients(c, room, me);
  }

  /** Anyone can post into any existing room: the frame is stored even when
      its sender is not a participant. */
  lemma OutsiderMessageStored(s: Store, me: UserId, rid: RoomId, content: string, mid: MessageId, now: Time)
    requires rid in s.rooms && me !in s.rooms[rid].Participants()
    ensures SendMessage(s, me, rid, content, None, mid, now).Some?
    ensures ParticipantRoom(s, me, rid) == Err(HttpError(403, "Not a participant"))
  {
  }

  /** A message sent to a room is read by any participant together with
      everything that was there before, and nothing else. The first clause
      holds whatever order the database returns; the second, that it comes
      last, holds under the model's storage order. */
  lemma SentMessageIsRead(s: Store, me: UserId, reader: UserId, rid: RoomId, content: string,
                          fileUrl: Option<string>, mid: MessageId, now: Time, later: Time)
    requires rid in s.rooms && reader in s.rooms[rid].Participants()
    ensures var (t, m) := SendMessage(s, me, rid, content, fileUrl, mid, now).value;
            && GetMessages(t, reader, rid, later).Ok?
            && multiset(GetMessages(t, reader, rid, later).value.1) == multiset(s.rooms[rid].messages) + multiset{m}
            && GetMessages(t, reader, rid, later).value.1 == s.rooms[rid].messages + [m]
  {
  }

  /** An attachment just uploaded is served by the file download route
      under the name returned for it. */
  lemma AttachmentIsServed(s: Store, me: UserId, rid: RoomId, filename: string, uuid: string)
    requires rid in s.rooms && me in s.rooms[rid].Participants()
    ensures var (t, name) := UploadFile(s, me, rid, filename, uuid).value;
            Files.GetFile(t, name) == Ok(PathJoin(Config.UPLOAD_FOLDER, name))
  {
  }
}

=== FILE: config.dfy ===
/** The settings constants the modelled handlers read (core/config.py). */
module Config {

  const ACCESS_TOKEN_EXPIRE_MINUTES: int := 30
  const VERIFICATION_CODE_EXPIRE_MINUTES: int := 30
  const UPLOAD_FOLDER: string := "uploaded_files"
  const ALLOWED_IMAGE_TYPES: seq<string> := ["jpg", "jpeg", "png", "webp"]
  const POSTS_PER_MINUTE: int := 5

  /** The default lifetime `create_access_token` uses when no delta is given. */
  const DEFAULT_TOKEN_MINUTES: int := 15

  const SECONDS_PER_MINUTE: int := 60
}

=== FILE: dependencies.dfy ===
/** The request dependencies every router leans on: user lookup, password
    authentication, token expiry, the cookie-to-user chain, the active and
    admin guards, the liked flag and the rate limiter (dependencies.py). */
module Dependencies {
  import opened Wrappers
  import opened Records
  import opened Text
  import Config

  /** What `get_user` returns: the row it found, or the `False` it uses for
      "no such user". */
  datatype Lookup = Found(id: UserId) | NoSuchUser

  /** The ids of the user rows carrying a username. */
  function IdsNamed(users: map<UserId, User>, name: string): (ids: set<UserId>)
    ensures forall k :: k in ids <==> k in users && users[k].username == name
  {
    set k | k in users && users[k].username == name
  }

  /** `get_user`: the first row with that username, in no specified order. */
  ghost function GetUser(s: Store, name: string): (r: Lookup)
    ensures r.Found? <==> exists k :: k in s.users && s.users[k].username == name
    ensures r.Found? ==> r.id in s.users && s.users[r.id].username == name
  {
    var ids := IdsNamed(s.users, name);
    if ids == {} then NoSuchUser else Found(Pick(ids))
  }

  /** When a single row carries the username, the lookup finds that row,
      whichever row `.first()` would prefer among several. */
  lemma UniqueNameIsFound(s: Store, name: string, k: UserId)
    requires k in s.users && s.users[k].username == name
    requires forall j :: j in s.users && s.users[j].username == name ==> j == k
    ensures GetUser(s, name) == Found(k)
  {
  }

  /** Two stores that agree on which rows carry a username agree on the lookup. */
  lemma GetUserDependsOnNames(s: Store, t: Store, name: string)
    requires IdsNamed(s.users, name) == IdsNamed(t.users, name)
    ensures GetUser(s, name) == GetUser(t, name)
  {
  }

  /** `authenticate_user`: the user, when the name is known and the password
      oracle accepts the plain text against the stored hash. */
  ghost function AuthenticateUser(s: Store, name: string, password: string,
                                  verify: (string, string) -> bool): (r: Option<UserId>)
    ensures r.None? <==> GetUser(s, name).NoSuchUser?
                         || !verify(password, s.users[GetUser(s, name).id].password)
    ensures r.Some? ==> r.value in s.users && s.users[r.value].username == name
                        && verify(password, s.users[r.value].password)
  {
    match GetUser(s, name)
    case NoSuchUser => None
    case Found(id) => if verify(password, s.users[id].password) then Some(id) else None
  }

  /** `create_access_token`'s expiry. A zero delta is falsy in Python, so it
      gets the 15-minute default as well. */
  function TokenExpiry(now: Time, delta: Option<int>): (exp: Time)
    ensures delta.Some? && delta.value != 0 ==> exp == now + delta.value
    ensures delta.None? || delta.value == 0
            ==> exp - now == Config.DEFAULT_TOKEN_MINUTES * Config.SECONDS_PER_MINUTE
  {
    now + (if delta.Some? && delta.value != 0 then delta.value
           else Config.DEFAULT_TOKEN_MINUTES * Config.SECONDS_PER_MINUTE)
  }

  const BEARER: string := "Bearer "

  /** The 401 raised for any failure to identify the caller from the cookie. */
  const CREDENTIALS_ERROR: HttpError := HttpError(401, "Could not validate credentials")

  /** The oracle standing for `jwt.decode`: `None` when it raises
      `InvalidTokenError`, otherwise the token's "sub" claim, if any. */
  type Decoder = string -> Option<Option<string>>

  /** The token `get_current_user` hands to `jwt.decode`: the cookie with every
      "Bearer " removed. */
  function TokenOfCookie(cookie: string): (token: string)
    ensures |token| <= |cookie|
    ensures !Contains(cookie, BEARER) ==> token == cookie
    ensures |cookie| >= |BEARER| && cookie[..|BEARER|] == BEARER && !Contains(cookie[|BEARER|..], BEARER)
            ==> token == cookie[|BEARER|..]
  {
    if !Contains(cookie, BEARER) then
      ReplaceAbsent(cookie, BEARER, "");
      ReplaceAll(cookie, BEARER, "")
    else if |cookie| >= |BEARER| && cookie[..|BEARER|] == BEARER && !Contains(cookie[|BEARER|..], BEARER) then
      StripPrefixOccurrences(BEARER, cookie[|BEARER|..]);
      assert BEARER + cookie[|BEARER|..] == cookie;
      ReplaceAll(cookie, BEARER, "")
    else
      ReplaceAll(cookie, BEARER, "")
  }

  /** `get_current_user` as written: the `is None` test can never fire, since
      `get_user` reports an unknown name with `False`, so an unknown name is
      passed on as `NoSuchUser`. */
  ghost function GetCurrentUser(s: Store, cookie: Option<string>, decode: Decoder): (r: Result<Lookup>)
    ensures r.Err? ==> r.error == CREDENTIALS_ERROR
    ensures r.Ok? <==> cookie.Some? && cookie.value != ""
                       && decode(TokenOfCookie(cookie.value)).Some?
                       && decode(TokenOfCookie(cookie.value)).value.Some?
    ensures r.Ok? ==> r.value == GetUser(s, decode(TokenOfCookie(cookie.value)).value.value)
  {
    if cookie.None? || cookie.value == "" then Err(CREDENTIALS_ERROR)
    else
      match decode(TokenOfCookie(cookie.value))
      case None => Err(CREDENTIALS_ERROR)
      case Some(sub) =>
        if sub.None? then Err(CREDENTIALS_ERROR)
        else Ok(GetUser(s, sub.value))
  }

  /** The 500 the global exception handler answers with. */
  const UNEXPECTED_ERROR: HttpError := HttpError(500, "An unexpected error occurred")

  /** `get_current_active_user` applied to what `get_current_user` returned.
      Reading `.disabled` off the `False` sentinel raises `AttributeError`,
      which the global handler turns into a 500. */
  function ActiveUser(s: Store, found: Lookup): (r: Result<UserId>)
    requires found.Found? ==> found.id in s.users
    ensures found.NoSuchUser? ==> r == Err(UNEXPECTED_ERROR)
    ensures found.Found? && s.users[found.id].disabled ==> r == Err(HttpError(400, "Inactive user"))
    ensures r.Ok? <==> found.Found? && !s.users[found.id].disabled
    ensures r.Ok? ==> r.value == found.id
  {
    match found
    case NoSuchUser => Err(UNEXPECTED_ERROR)
    case Found(id) => if s.users[id].disabled then Err(HttpError(400, "Inactive user")) else Ok(id)
  }

  /** The dependency chain as written: cookie, then user, then the active check. */
  ghost function CurrentActiveUserAsWritten(s: Store, cookie: Option<string>, decode: Decoder): (r: Result<UserId>)
    ensures r.Ok? ==> r.value in s.users && !s.users[r.value].disabled
  {
    var found :- GetCurrentUser(s, cookie, decode);
    ActiveUser(s, found)
  }

  /** As written, a valid token naming a user that no longer exists gets a 500
      rather than the credentials error. */
  lemma UnknownSubjectGets500(s: Store, cookie: string, decode: Decoder, name: string)
    requires cookie != "" && decode(TokenOfCookie(cookie)) == Some(Some(name))
    requires forall k :: k in s.users ==> s.users[k].username != name
    ensures CurrentActiveUserAsWritten(s, Some(cookie), decode) == Err(UNEXPECTED_ERROR)
  {
  }

  /** `get_current_user` as evidently intended: an unknown name is the
      credentials error. */
  ghost function GetCurrentUserChecked(s: Store, cookie: Option<string>, decode: Decoder): (r: Result<UserId>)
    ensures r.Err? ==> r.error == CREDENTIALS_ERROR
    ensures r.Ok? ==> r.value in s.users
    ensures r.Ok? <==> GetCurrentUser(s, cookie, decode).Ok? && GetCurrentUser(s, cookie, decode).value.Found?
    ensures r.Ok? ==> GetCurrentUser(s, cookie, decode) == Ok(Found(r.value))
  {
    var found :- GetCurrentUser(s, cookie, decode);
    if found.NoSuchUser? then Err(CREDENTIALS_ERROR) else Ok(found.id)
  }

  /** The corrected chain, which every handler of the model takes its caller from. */
  ghost function CurrentActiveUser(s: Store, cookie: Option<string>, decode: Decoder): (r: Result<UserId>)
    ensures r.Ok? ==> r.value in s.users && !s.users[r.value].disabled
    ensures r.Err? ==> r.error.status == 401 || r.error.status == 400
  {
    var id :- GetCurrentUserChecked(s, cookie, decode);
    ActiveUser(s, Found(id))
  }

  /** With the correction, a token naming no user is the credentials error,
      and the chain never answers with a 500. */
  lemma UnknownSubjectGets401(s: Store, cookie: string, decode: Decoder, name: string)
    requires cookie != "" && decode(TokenOfCookie(cookie)) == Some(Some(name))
    requires forall k :: k in s.users ==> s.users[k].username != name
    ensures CurrentActiveUser(s, Some(cookie), decode) == Err(CREDENTIALS_ERROR)
  {
  }

  /** `admin_only`. */
  function AdminOnly(s: Store, uid: UserId): (r: Result<UserId>)
    requires uid in s.users
    ensures r.Ok? <==> s.users[uid].isAdmin
    ensures r.Ok? ==> r.value == uid
    ensures r.Err? ==> r.error == HttpError(403, "Admin access required")
  {
    if !s.users[uid].isAdmin then Err(HttpError(403, "Admin access required")) else Ok(uid)
  }

  /** `post.liked_by`: the ids of the users with a like edge to the post. */
  function LikedBy(s: Store, pid: PostId): set<UserId> {
    set e | e in s.likes && e.1 == pid :: e.0
  }

  /** `add_liked_status`'s flag: whether the viewer likes the post, and no
      answer at all when there is no viewer. */
  function IsLikedByUser(s: Store, pid: PostId, viewer: Option<UserId>): (r: Option<bool>)
    ensures r.None? <==> viewer.None?
    ensures r.Some? ==> (r.value <==> (viewer.value, pid) in s.likes)
  {
    if viewer.None? then None
    else
      assert (viewer.value, pid) in s.likes ==> viewer.value in LikedBy(s, pid);
      Some(viewer.value in LikedBy(s, pid))
  }

  /** The body of `rate_limit`'s `try`: a 429 once the window's count passes
      the limit. `count` is what the Redis increment returned. */
  function RateLimitCheck(count: int, limit: int): (r: Outcome)
    ensures r.Fail? <==> count > limit
    ensures r.Fail? ==> r.error.status == 429
  {
    if count > limit then Fail(HttpError(429, "Too many requests")) else Pass
  }

  /** `rate_limit`: the `except Exception` around the check also catches its
      own 429, so the dependency lets every request through, whatever Redis
      answered (`None` when the Redis call itself failed). */
  function RateLimit(count: Option<int>, limit: int): (r: Outcome)
    ensures r == Pass
  {
    if count.None? then Pass
    else
      match RateLimitCheck(count.value, limit)
      case Fail(_) => Pass   // the HTTPException is caught and logged
      case Pass => Pass
  }

  /** The limiter would refuse an over-limit request, yet the dependency
      still passes it. */
  lemma RateLimitNeverRefuses(count: int, limit: int)
    requires count > limit
    ensures RateLimitCheck(count, limit).Fail?
    ensures RateLimit(Some(count), limit) == Pass
  {
  }

  /** `rate_limit` as evidently intended: the 429 reaches the client, while
      a failing Redis call still lets the request through. */
  function RateLimitIntended(count: Option<int>, limit: int): (r: Outcome)
    ensures r.Fail? <==> count.Some? && count.value > limit
    ensures r.Fail? ==> r.error == HttpError(429, "Too many requests")
  {
    if count.None? then Pass else RateLimitCheck(count.value, limit)
  }

  /** The intended limiter refuses exactly the over-limit requests the
      written one lets through, and agrees with it on every other input. */
  lemma IntendedLimiterDiffersOnlyOverLimit(count: Option<int>, limit: int)
    ensures RateLimitIntended(count, limit) != RateLimit(count, limit)
            <==> count.Some? && count.value > limit
  {
  }
}

=== FILE: engagement.dfy ===
/** The engagement service: a post's decayed, weighted popularity score and a
    user's interactions-per-post rate (services/engagement.py). */
module Engagement {
  import opened Records

  const LIKE_WEIGHT: real := 1.0
  const REPLY_WEIGHT: real := 1.2
  const SHARE_WEIGHT: real := 1.5
  const VIEW_WEIGHT: real := 0.1

  /** The weighted sum of a post's counters, before time decay. */
  function RawScore(p: Post): (r: real)
    ensures r >= 0.0
    ensures r == 0.0 <==> p.likeCount == 0 && p.replyCount == 0 && p.shareCount == 0 && p.viewCount == 0
  {
    p.likeCount as real * LIKE_WEIGHT
    + p.replyCount as real * REPLY_WEIGHT
    + p.shareCount as real * SHARE_WEIGHT
    + p.viewCount as real * VIEW_WEIGHT
  }

  /** Hours elapsed from `date` to `now`, both read on one UTC clock;
      negative for a post dated in the future. */
  function HoursSince(date: Time, now: Time): real {
    (now - date) as real / 3600.0
  }

  /** The decay divides by `1 + hours/24`, which is zero for a post dated
      exactly one day ahead. */
  predicate DecayDefined(hours: real) {
    1.0 + hours / 24.0 != 0.0
  }

  /** The hyperbolic time decay: 1 at age zero, 1/2 after a day, towards 0 after. */
  function Decay(hours: real): (d: real)
    requires DecayDefined(hours)
    ensures hours >= 0.0 ==> 0.0 < d <= 1.0
    ensures d * (1.0 + hours / 24.0) == 1.0
  {
    1.0 / (1.0 + hours / 24.0)
  }

  /** `calculate_post_engagement_score` with the clock passed in. */
  function PostScore(p: Post, now: Time): (score: real)
    requires DecayDefined(HoursSince(p.date, now))
    ensures p.date <= now ==> 0.0 <= score <= RawScore(p)
    ensures RawScore(p) == 0.0 ==> score == 0.0
  {
    RawScore(p) * Decay(HoursSince(p.date, now))
  }

  /** Raising one counter by one raises the raw score by exactly its weight. */
  lemma OneMoreLike(p: Post)
    ensures RawScore(p.(likeCount := p.likeCount + 1)) == RawScore(p) + LIKE_WEIGHT
  {
  }

  /** A post with no interactions scores zero at every age. */
  lemma ZeroCountersScoreZero(p: Post, now: Time)
    requires p.likeCount == 0 && p.replyCount == 0 && p.shareCount == 0 && p.viewCount == 0
    requires DecayDefined(HoursSince(p.date, now))
    ensures PostScore(p, now) == 0.0
  {
  }

  /** After exactly one day the decay has halved the raw score. */
  lemma DecayAfterOneDay()
    ensures Decay(24.0) == 0.5
  {
  }

  /** Multiplying by a positive factor keeps a strict order. */
  lemma MulStrict(x: real, a: real, b: real)
    requires x > 0.0 && a < b
    ensures x * a < x * b
  {
    assert x * b - x * a == x * (b - a);
    assert x * (b - a) > 0.0;
  }

  /** Multiplying by a non-negative factor keeps a weak order. */
  lemma MulMono(x: real, a: real, b: real)
    requires x >= 0.0 && a <= b
    ensures x * a <= x * b
  {
    assert x * b - x * a == x * (b - a);
    assert x * (b - a) >= 0.0;
  }

  /** Of two positive numbers, the larger has the smaller reciprocal. */
  lemma ReciprocalStrict(a: real, b: real, da: real, db: real)
    requires 0.0 < a < b && da * a == 1.0 && db * b == 1.0
    ensures db < da
  {
    assert db > 0.0;
    MulStrict(db, a, b);
    if da <= db {
      MulMono(a, da, db);
    }
  }

  /** The decay strictly decreases with age. */
  lemma DecayStrictlyDecreasing(h1: real, h2: real)
    requires 0.0 <= h1 < h2
    ensures Decay(h2) < Decay(h1)
  {
    ReciprocalStrict(1.0 + h1 / 24.0, 1.0 + h2 / 24.0, Decay(h1), Decay(h2));
  }

  /** Two products by the same positive factor keep the order of the other factors. */
  lemma ScaledStrict(x: real, y: real, factor: real, a: real, c: real)
    requires factor > 0.0 && x < y && a == factor * x && c == factor * y
    ensures a < c
  {
    MulStrict(factor, x, y);
  }

  lemma ScaledMono(x: real, y: real, factor: real, a: real, c: real)
    requires factor >= 0.0 && x <= y && a == x * factor && c == y * factor
    ensures a <= c
  {
    MulMono(factor, x, y);
    assert x * factor == factor * x && y * factor == factor * y;
  }

  /** For a post with any interaction, the score strictly falls as time passes. */
  lemma ScoreStrictlyDecreasing(p: Post, t1: Time, t2: Time)
    requires RawScore(p) > 0.0
    requires p.date <= t1 < t2
    ensures PostScore(p, t2) < PostScore(p, t1)
  {
    var h1 := HoursSince(p.date, t1);
    var h2 := HoursSince(p.date, t2);
    DecayStrictlyDecreasing(h1, h2);
    ScaledStrict(Decay(h2), Decay(h1), RawScore(p), PostScore(p, t2), PostScore(p, t1));
  }

  /** At a fixed age, more of every counter never lowers the score. */
  lemma ScoreMonotoneInCounters(p: Post, q: Post, now: Time)
    requires p.date == q.date && p.date <= now
    requires p.likeCount <= q.likeCount && p.replyCount <= q.replyCount
    requires p.shareCount <= q.shareCount && p.viewCount <= q.viewCount
    ensures PostScore(p, now) <= PostScore(q, now)
  {
    assert RawScore(p) <= RawScore(q);
    ScaledMono(RawScore(p), RawScore(q), Decay(HoursSince(p.date, now)), PostScore(p, now), PostScore(q, now));
  }

  /** The positions of the log holding the user's interactions. Repeated
      likes of one post leave equal entries, each at its own position. */
  function MatchPositions(log: seq<Interaction>, uid: UserId): set<int> {
    set k | 0 <= k < |log| && log[k].userId == uid
  }

  /** The interactions `select(Interaction).where(Interaction.user_id == uid)`
      returns, in log order. */
  function Matching(log: seq<Interaction>, uid: UserId): (r: seq<Interaction>)
    ensures |r| <= |log|
    ensures forall k :: 0 <= k < |r| ==> r[k].userId == uid && r[k] in log
    ensures forall k :: 0 <= k < |log| && log[k].userId == uid ==> log[k] in r
  {
    if |log| == 0 then []
    else
      var last := log[|log| - 1];
      Matching(log[..|log| - 1], uid) + (if last.userId == uid then [last] else [])
  }

  /** Dropping the last entry of the log drops its position, if it held one
      of the user's interactions, and no other. */
  lemma MatchPositionsStep(log: seq<Interaction>, uid: UserId)
    requires |log| > 0
    ensures |MatchPositions(log, uid)|
         == |MatchPositions(log[..|log| - 1], uid)| + (if log[|log| - 1].userId == uid then 1 else 0)
  {
    var n := |log| - 1;
    var init := log[..n];
    var before := MatchPositions(init, uid);
    var after := if log[n].userId == uid then before + {n} else before;
    forall k ensures k in MatchPositions(log, uid) <==> k in after {
      if 0 <= k < n {
        assert init[k] == log[k];
      }
    }
    assert MatchPositions(log, uid) == after;
    assert n !in before;
  }

  /** The matches hold one entry per log position holding one of the user's
      interactions: equal entries from repeated likes are each counted. */
  lemma {:induction false} MatchingCountsPositions(log: seq<Interaction>, uid: UserId)
    ensures |Matching(log, uid)| == |MatchPositions(log, uid)|
    decreases |log|
  {
    if |log| == 0 {
      assert MatchPositions(log, uid) == {};
    } else {
      MatchPositionsStep(log, uid);
      MatchingCountsPositions(log[..|log| - 1], uid);
    }
  }

  /** Appending an interaction by the user extends their matches by it;
      one by anybody else leaves them as they were. */
  lemma MatchingAppend(log: seq<Interaction>, i: Interaction, uid: UserId)
    ensures Matching(log + [i], uid)
         == Matching(log, uid) + (if i.userId == uid then [i] else [])
  {
    assert (log + [i])[..|log|] == log;
  }

  /** Interactions by other users never affect a user's matches. */
  lemma {:induction false} OthersIrrelevant(log: seq<Interaction>, extra: seq<Interaction>, uid: UserId)
    requires forall k :: 0 <= k < |extra| ==> extra[k].userId != uid
    ensures Matching(log + extra, uid) == Matching(log, uid)
    decreases |extra|
  {
    if |extra| > 0 {
      var init := extra[..|extra| - 1];
      var last := extra[|extra| - 1];
      assert log + extra == (log + init) + [last];
      MatchingAppend(log + init, last, uid);
      OthersIrrelevant(log, init, uid);
    } else {
      assert log + extra == log;
    }
  }

  /** One more entry of the log adds one match exactly when it is the user's. */
  lemma MatchingPrefixStep(log: seq<Interaction>, i: nat, uid: UserId)
    requires i < |log|
    ensures |Matching(log[..i + 1], uid)| == |Matching(log[..i], uid)| + (if log[i].userId == uid then 1 else 0)
  {
    MatchingAppend(log[..i], log[i], uid);
    assert log[..i] + [log[i]] == log[..i + 1];
  }

  /** The number of the user's interactions, counted as the query result is
      materialised with `.all()` and measured with `len`. */
  method CountInteractions(log: seq<Interaction>, uid: UserId) returns (n: nat)
    ensures n == |Matching(log, uid)|
    ensures n == |MatchPositions(log, uid)|
  {
    n := 0;
    var i := 0;
    while i < |log|
      invariant 0 <= i <= |log|
      invariant n == |Matching(log[..i], uid)|
    {
      MatchingPrefixStep(log, i, uid);
      if log[i].userId == uid {
        n := n + 1;
      }
      i := i + 1;
    }
    assert log[..|log|] == log;
    MatchingCountsPositions(log, uid);
  }

  /** Interactions per post, and 0 for a user with no posts. */
  function RatePerPost(interactions: nat, postCount: int): (rate: real)
    ensures postCount <= 0 ==> rate == 0.0
    ensures postCount > 0 ==> rate * postCount as real == interactions as real
    ensures rate >= 0.0
  {
    if postCount > 0 then
      var n := interactions as real;
      var d := postCount as real;
      assert (n / d) * d == n;
      n / d
    else 0.0
  }

  /** The engagement rate of a user, computed from the interaction log. */
  function EngagementRate(log: seq<Interaction>, uid: UserId, postCount: int): (rate: real)
    ensures rate == RatePerPost(|MatchPositions(log, uid)|, postCount)
  {
    MatchingCountsPositions(log, uid);
    RatePerPost(|Matching(log, uid)|, postCount)
  }

  /** `update_user_engagement_rate`: recompute the rate from the log and the
      user's post count, persist it on the user, and return it. */
  function UpdateUserEngagementRate(s: Store, uid: UserId): (r: (Store, real))
    requires uid in s.users
    ensures r.1 == EngagementRate(s.interactions, uid, s.users[uid].postCount)
    ensures OnlyUserChanged(s, r.0, uid)
    ensures r.0.users[uid] == s.users[uid].(engagementRate := r.1)
  {
    var rate := EngagementRate(s.interactions, uid, s.users[uid].postCount);
    (s.(users := s.users[uid := s.users[uid].(engagementRate := rate)]), rate)
  }

  /** Recomputing with the log and the post count unchanged gives the same
      rate and leaves the store as it is. */
  lemma UpdateRateIdempotent(s: Store, uid: UserId)
    requires uid in s.users
    ensures UpdateUserEngagementRate(UpdateUserEngagementRate(s, uid).0, uid)
         == UpdateUserEngagementRate(s, uid)
  {
    var (s1, r1) := UpdateUserEngagementRate(s, uid);
    var (s2, r2) := UpdateUserEngagementRate(s1, uid);
    assert r2 == r1;
    assert s2.users == s1.users;
  }

  /** Interactions by other users appended to the log leave the rate unchanged. */
  lemma RateIgnoresOthers(log: seq<Interaction>, extra: seq<Interaction>, uid: UserId, postCount: int)
    requires forall k :: 0 <= k < |extra| ==> extra[k].userId != uid
    ensures EngagementRate(log + extra, uid, postCount) == EngagementRate(log, uid, postCount)
  {
    OthersIrrelevant(log, extra, uid);
  }
}

=== FILE: files.dfy ===
/** Profile pictures and file download: the extension allow-list and the
    existence rule (routers/files.py). */
module Files {
  import opened Wrappers
  import opened Records
  import opened Text
  import Config
  import Dependencies

  /** `filename.split(".")[-1].lower()`: the lowered text after the last '.',
      or the whole lowered name when it has no '.'. */
  function ExtensionOf(filename: string): (ext: string)
    ensures '.' !in ext
    ensures |ext| <= |filename|
    ensures '.' !in filename ==> ext == Lower(filename)
  {
    var raw := AfterLast(filename, '.');
    assert '.' !in filename ==> raw == filename;
    Lower(raw)
  }

  predicate IsAllowedImage(ext: string) {
    ext in Config.ALLOWED_IMAGE_TYPES
  }

  /** Lowering never makes or removes a '.'. */
  lemma LowerKeepsDots(s: string)
    ensures '.' in Lower(s) <==> '.' in s
  {
    if '.' in s {
      var i :| 0 <= i < |s| && s[i] == '.';
      assert Lower(s)[i] == '.';
    }
    if '.' in Lower(s) {
      var i :| 0 <= i < |Lower(s)| && Lower(s)[i] == '.';
      assert s[i] == '.';
    }
  }

  /** Lowering commutes with taking a slice. */
  lemma LowerSlice(s: string, i: int)
    requires 0 <= i <= |s|
    ensures Lower(s)[i..] == Lower(s[i..])
  {
  }

  /** Lowering twice is lowering once. */
  lemma LowerIdempotent(s: string)
    ensures Lower(Lower(s)) == Lower(s)
  {
  }

  /** A '.' stays a '.' when lowered. */
  lemma LowerDotAt(s: string, d: int)
    requires 0 <= d < |s| && s[d] == '.'
    ensures Lower(s)[d] == '.'
  {
  }

  /** The check does not depend on the case of the uploaded name. */
  lemma ExtensionIgnoresCase(filename: string)
    ensures ExtensionOf(Lower(filename)) == ExtensionOf(filename)
  {
    var t := AfterLast(filename, '.');
    var low := Lower(filename);
    LowerIdempotent(t);
    if |t| < |filename| {
      var d := |filename| - |t| - 1;
      LowerDotAt(filename, d);
      LowerSlice(filename, d + 1);
      assert filename[d + 1..] == t;
      LowerKeepsDots(t);
      AfterLastAt(low, '.', d);
    } else {
      assert t == filename;
      LowerKeepsDots(filename);
      assert AfterLast(low, '.') == low;
    }
  }

  /** Text without upper-case letters is its own lower case. */
  lemma LowerOfLower(s: string)
    requires forall i :: 0 <= i < |s| ==> !('A' <= s[i] <= 'Z')
    ensures Lower(s) == s
  {
  }

  /** An upper-case extension passes. */
  lemma UpperCaseExtensionAccepted()
    ensures ExtensionOf("A.PNG") == "png" && IsAllowedImage(ExtensionOf("A.PNG"))
  {
    AfterLastAt("A.PNG", '.', 1);
    assert "A.PNG"[2..] == "PNG";
    var l := Lower("PNG");
    assert l[0] == 'p' && l[1] == 'n' && l[2] == 'g';
    assert l == "png";
  }

  /** Only the last extension counts. */
  lemma LastExtensionCounts()
    ensures ExtensionOf("photo.png.exe") == "exe" && !IsAllowedImage(ExtensionOf("photo.png.exe"))
  {
    AfterLastAt("photo.png.exe", '.', 9);
    assert "photo.png.exe"[10..] == "exe";
    LowerOfLower("exe");
  }

  /** A name with no '.' is judged as a whole. */
  lemma NameWithoutDotJudgedWhole()
    ensures ExtensionOf("JPEG") == "jpeg" && IsAllowedImage(ExtensionOf("JPEG"))
  {
    assert '.' !in "JPEG";
    var l := Lower("JPEG");
    assert l[0] == 'j' && l[1] == 'p' && l[2] == 'e' && l[3] == 'g';
    assert l == "jpeg";
  }

  /** The name a new profile picture is saved under: the uuid with a ".webp"
      extension, since the image is re-encoded as WebP. */
  function PictureName(uuid: string): (name: string)
    ensures |name| > |uuid| && name[..|uuid|] == uuid
    ensures AfterLast(name, '.') == "webp"
  {
    var n := uuid + ".webp";
    assert n[|uuid|] == '.' && n[|uuid| + 1..] == "webp";
    AfterLastAt(n, '.', |uuid|);
    n
  }

  /** Whatever the upload's format, the saved picture's own extension passes
      the allow-list. */
  lemma PictureIsWebp(uuid: string)
    ensures IsAllowedImage(ExtensionOf(PictureName(uuid)))
  {
    LowerOfLower("webp");
  }

  /** The store after saving picture `name` for `me`: the file exists under
      the upload folder and `me`'s picture names it; nothing else changes. */
  function SetPicture(s: Store, me: UserId, name: string): (t: Store)
    requires me in s.users
    ensures t.files == s.files + {PathJoin(Config.UPLOAD_FOLDER, name)}
    ensures t.users.Keys == s.users.Keys
    ensures t.users[me] == s.users[me].(pfp := Some(name))
    ensures forall k :: k in s.users && k != me ==> t.users[k] == s.users[k]
    ensures t == s.(users := t.users, files := t.files)
  {
    s.(users := s.users[me := s.users[me].(pfp := Some(name))],
       files := s.files + {PathJoin(Config.UPLOAD_FOLDER, name)})
  }

  /** `update_profile_picture`. `imageOk` stands for PIL decoding the upload;
      when it cannot, the error reaches the global handler as a 500. */
  function UpdateProfilePicture(s: Store, me: UserId, filename: string, uuid: string, imageOk: bool): (r: Result<(Store, string)>)
    requires me in s.users
    ensures !IsAllowedImage(ExtensionOf(filename)) ==> r == Err(HttpError(400, "Unsupported image format"))
    ensures IsAllowedImage(ExtensionOf(filename)) && !imageOk ==> r == Err(Dependencies.UNEXPECTED_ERROR)
    ensures r.Ok? <==> IsAllowedImage(ExtensionOf(filename)) && imageOk
    ensures r.Ok? ==> r.value == (SetPicture(s, me, PictureName(uuid)), PictureName(uuid))
  {
    var allowed := IsAllowedImage(ExtensionOf(filename));
    if !allowed then Err(HttpError(400, "Unsupported image format"))
    else if !imageOk then Err(Dependencies.UNEXPECTED_ERROR)
    else
      var name := PictureName(uuid);
      Ok((SetPicture(s, me, name), name))
  }

  /** A path segment that names a directory whatever the folder holds: the
      folder itself or its parent, both of which exist once the upload
      folder has been created at startup. */
  predicate IsDirectoryName(name: string) {
    name == "." || name == ".."
  }

  /** `get_file`: the file under the upload folder, if one exists there.
      `os.path.exists` is also true of a directory; `FileResponse` then
      refuses it when the response is sent, and the client gets a 500. */
  function GetFile(s: Store, name: string): (r: Result<string>)
    ensures IsDirectoryName(name) ==> r == Err(Dependencies.UNEXPECTED_ERROR)
    ensures r.Ok? <==> !IsDirectoryName(name) && PathJoin(Config.UPLOAD_FOLDER, name) in s.files
    ensures !IsDirectoryName(name) && r.Err? ==> r.error == HttpError(404, "File not found")
    ensures r.Ok? ==> r.value == PathJoin(Config.UPLOAD_FOLDER, name)
  {
    var path := PathJoin(Config.UPLOAD_FOLDER, name);
    if IsDirectoryName(name) then Err(Dependencies.UNEXPECTED_ERROR)
    else if path in s.files then Ok(path) else Err(HttpError(404, "File not found"))
  }

  /** A picture just uploaded can be fetched by the name returned for it. */
  lemma UploadedPictureIsServed(s: Store, me: UserId, filename: string, uuid: string)
    requires me in s.users && UpdateProfilePicture(s, me, filename, uuid, true).Ok?
    ensures var (t, name) := UpdateProfilePicture(s, me, filename, uuid, true).value;
            GetFile(t, name) == Ok(PathJoin(Config.UPLOAD_FOLDER, name))
  {
  }
}

=== FILE: posts.dfy ===
/** Post creation, owner-checked deletion and the date-ordered feed
    (routers/posts.py). */
module Posts {
  import opened Wrappers
  import opened Records

  /** The body a client sends to create a post. Its `userId` is never used. */
  datatype PostCreate = PostCreate(text: string, userId: UserId)

  /** `create_post`: the post is stored under the id the database assigns,
      owned by the caller, with every counter at zero. The `date` column's
      default is `datetime.now()` evaluated once, when the model module is
      loaded, so every post a server process creates carries that same
      instant, `loaded`, rather than its own creation time. */
  function CreatePost(s: Store, me: UserId, input: PostCreate, id: PostId, loaded: Time): (r: (Store, Post))
    requires me in s.users && id !in s.posts
    ensures r.1.id == id && r.1.userId == me && r.1.text == input.text && r.1.date == loaded
    ensures r.1.likeCount == 0 && r.1.replyCount == 0 && r.1.shareCount == 0 && r.1.viewCount == 0
    ensures r.1.engagementScore == 0.0
    ensures r.0.posts.Keys == s.posts.Keys + {id} && r.0.posts[id] == r.1
    ensures forall k :: k in s.posts ==> r.0.posts[k] == s.posts[k]
    ensures r.0 == s.(posts := r.0.posts)
  {
    var p := Post(id, me, input.text, loaded, 0, 0, 0, 0, 0.0);
    (s.(posts := s.posts[id := p]), p)
  }

  /** Whatever owner the client claims, the stored post is the caller's. */
  lemma CreateIgnoresClaimedOwner(s: Store, me: UserId, text: string, claimed1: UserId, claimed2: UserId,
                                  id: PostId, loaded: Time)
    requires me in s.users && id !in s.posts
    ensures CreatePost(s, me, PostCreate(text, claimed1), id, loaded)
         == CreatePost(s, me, PostCreate(text, claimed2), id, loaded)
  {
  }

  lemma CreateKeepsWellformed(s: Store, me: UserId, input: PostCreate, id: PostId, loaded: Time)
    requires Wellformed(s) && me in s.users && id !in s.posts
    ensures Wellformed(CreatePost(s, me, input, id, loaded).0)
  {
  }

  /** `delete_post`: a missing post is a 404, another user's post a 401,
      and the caller's own post is removed and returned. */
  function DeletePost(s: Store, me: UserId, pid: PostId): (r: Result<(Store, Post)>)
    ensures pid !in s.posts ==> r == Err(HttpError(404, "Post not found"))
    ensures pid in s.posts && s.posts[pid].userId != me
            ==> r == Err(HttpError(401, "Not authorized to delete this post"))
    ensures r.Ok? <==> pid in s.posts && s.posts[pid].userId == me
    ensures r.Ok? ==> r.value.1 == s.posts[pid]
    ensures r.Ok? ==> r.value.0.posts.Keys == s.posts.Keys - {pid}
    ensures r.Ok? ==> forall k :: k in r.value.0.posts ==> r.value.0.posts[k] == s.posts[k]
    ensures r.Ok? ==> r.value.0 == s.(posts := r.value.0.posts)
  {
    if pid !in s.posts then Err(HttpError(404, "Post not found"))
    else if s.posts[pid].userId != me then Err(HttpError(401, "Not authorized to delete this post"))
    else Ok((s.(posts := s.posts - {pid}), s.posts[pid]))
  }

  /** Deleting a post one just created restores the store. */
  lemma DeleteUndoesCreate(s: Store, me: UserId, input: PostCreate, id: PostId, loaded: Time)
    requires me in s.users && id !in s.posts
    ensures var (t, p) := CreatePost(s, me, input, id, loaded);
            DeletePost(t, me, id) == Ok((s, p))
  {
    var (t, p) := CreatePost(s, me, input, id, loaded);
    assert t.posts - {id} == s.posts;
  }

  lemma DeleteKeepsWellformed(s: Store, me: UserId, pid: PostId)
    requires Wellformed(s) && DeletePost(s, me, pid).Ok?
    ensures Wellformed(DeletePost(s, me, pid).value.0)
  {
  }

  /** Feed order: newer posts first. The query orders by date alone and the
      database breaks ties as it likes; the model breaks them by id. */
  predicate Before(posts: map<PostId, Post>, a: PostId, b: PostId)
    requires a in posts && b in posts
  {
    posts[a].date > posts[b].date || (posts[a].date == posts[b].date && a < b)
  }

  ghost predicate IsFirst(posts: map<PostId, Post>, ids: set<PostId>, m: PostId)
    requires ids <= posts.Keys
  {
    m in ids && forall x :: x in ids && x != m ==> Before(posts, m, x)
  }

  lemma {:induction false} FirstExists(posts: map<PostId, Post>, ids: set<PostId>)
    requires ids <= posts.Keys && ids != {}
    ensures exists m :: IsFirst(posts, ids, m)
    decreases ids
  {
    var x := Pick(ids);
    if ids == {x} {
      assert IsFirst(posts, ids, x);
    } else {
      var rest := ids - {x};
      FirstExists(posts, rest);
      var m :| IsFirst(posts, rest, m);
      if Before(posts, x, m) {
        forall y | y in ids && y != x
          ensures Before(posts, x, y)
        {
          if y != m {
            assert Before(posts, m, y);
          }
        }
        assert IsFirst(posts, ids, x);
      } else {
        assert m != x && Before(posts, m, x);
        assert IsFirst(posts, ids, m);
      }
    }
  }

  /** The posts with the given ids in feed order, each exactly once. */
  ghost function Ordering(posts: map<PostId, Post>, ids: set<PostId>): (r: seq<PostId>)
    requires ids <= posts.Keys
    ensures |r| == |ids|
    ensures forall k :: 0 <= k < |r| ==> r[k] in ids
    ensures forall x :: x in ids ==> x in r
    ensures forall i, j :: 0 <= i < j < |r| ==> Before(posts, r[i], r[j])
    decreases ids
  {
    if ids == {} then []
    else
      FirstExists(posts, ids);
      var m :| IsFirst(posts, ids, m);
      [m] + Ordering(posts, ids - {m})
  }

  /** Every stored post, in feed order. */
  ghost function FeedOrder(s: Store): seq<PostId> {
    Ordering(s.posts, s.posts.Keys)
  }

  function Min(a: int, b: int): int {
    if a <= b then a else b
  }

  /** The rows `OFFSET offset LIMIT limit` keeps of an ordered result. */
  function Window<T>(xs: seq<T>, offset: nat, limit: nat): (r: seq<T>)
    ensures |r| == (if offset >= |xs| then 0 else Min(limit, |xs| - offset))
    ensures forall i :: 0 <= i < |r| ==> r[i] == xs[offset + i]
  {
    if offset >= |xs| then [] else xs[offset..Min(offset + limit, |xs|)]
  }

  /** The feed's `offset = (page - 1) * limit`. */
  function Offset(page: int, limit: int): nat
    requires page >= 1 && limit >= 1
  {
    MulNonNeg(page - 1, limit);
    (page - 1) * limit
  }

  /** The next page starts one limit further on. */
  lemma OffsetNext(page: int, limit: int)
    requires page >= 1 && limit >= 1
    ensures Offset(page + 1, limit) == Offset(page, limit) + limit
  {
    assert page * limit == (page - 1) * limit + limit;
  }

  lemma MulNonNeg(a: int, b: int)
    requires a >= 0 && b >= 0
    ensures a * b >= 0
  {
  }

  /** The validation error for a query parameter outside its declared range.
      Only the 422 status is modelled; FastAPI's body is a list of
      validation errors, which the detail string here stands for. */
  const INVALID_QUERY: HttpError := HttpError(422, "Unprocessable Entity")

  /** The stored rows for a sequence of post ids. */
  function RowsOf(posts: map<PostId, Post>, ids: seq<PostId>): (r: seq<Post>)
    requires forall i :: 0 <= i < |ids| ==> ids[i] in posts
    ensures |r| == |ids|
    ensures forall i :: 0 <= i < |r| ==> r[i] == posts[ids[i]]
  {
    seq(|ids|, i requires 0 <= i < |ids| => posts[ids[i]])
  }

  /** `get_posts_feed`: page `page` of `limit` posts of the date-descending
      ordering of all posts, with no filter. */
  ghost function GetPostsFeed(s: Store, page: int, limit: int): (r: Result<seq<Post>>)
    ensures r.Err? <==> page < 1 || limit < 1 || limit > 100
    ensures r.Err? ==> r.error == INVALID_QUERY
    ensures r.Ok? ==> r.value == RowsOf(s.posts, Window(FeedOrder(s), Offset(page, limit), limit))
  {
    if page < 1 || limit < 1 || limit > 100 then Err(INVALID_QUERY)
    else Ok(RowsOf(s.posts, Window(FeedOrder(s), Offset(page, limit), limit)))
  }

  /** Every id of `order` has a row. */
  predicate Covers(posts: map<PostId, Post>, order: seq<PostId>) {
    forall i :: 0 <= i < |order| ==> order[i] in posts
  }

  /** `order` lists stored posts in feed order. */
  predicate InFeedOrder(posts: map<PostId, Post>, order: seq<PostId>) {
    && Covers(posts, order)
    && forall i, j :: 0 <= i < j < |order| ==> Before(posts, order[i], order[j])
  }

  /** The rows of any window of a feed-ordered id sequence: at most `limit`
      stored rows, dates non-increasing. */
  lemma WindowRowsShape(posts: map<PostId, Post>, order: seq<PostId>, offset: nat, limit: nat)
    requires InFeedOrder(posts, order)
    requires forall k :: k in posts ==> posts[k].id == k
    ensures var r := RowsOf(posts, Window(order, offset, limit));
            && |r| <= limit
            && (forall i :: 0 <= i < |r| ==> r[i].id in posts && posts[r[i].id] == r[i])
            && (forall i, j :: 0 <= i < j < |r| ==> r[i].date >= r[j].date)
  {
    var w := Window(order, offset, limit);
    var r := RowsOf(posts, w);
    forall i | 0 <= i < |r|
      ensures r[i].id in posts && posts[r[i].id] == r[i]
    {
      var k := w[i];
      assert k == order[offset + i] && k in posts;
      assert r[i] == posts[k] && posts[k].id == k;
    }
    forall i, j | 0 <= i < j < |r|
      ensures r[i].date >= r[j].date
    {
      assert Before(posts, order[offset + i], order[offset + j]);
    }
  }

  /** A page holds at most `limit` stored posts, newest first. */
  lemma FeedPageShape(s: Store, page: int, limit: int)
    requires Wellformed(s) && page >= 1 && 1 <= limit <= 100
    ensures var r := GetPostsFeed(s, page, limit).value;
            && |r| <= limit
            && (forall i :: 0 <= i < |r| ==> r[i].id in s.posts && s.posts[r[i].id] == r[i])
            && (forall i, j :: 0 <= i < j < |r| ==> r[i].date >= r[j].date)
  {
    assert InFeedOrder(s.posts, FeedOrder(s));
    WindowRowsShape(s.posts, FeedOrder(s), Offset(page, limit), limit);
  }

  /** No post id occurs twice in a sequence. */
  predicate Distinct(xs: seq<PostId>) {
    forall i, j :: 0 <= i < j < |xs| ==> xs[i] != xs[j]
  }

  lemma FeedOrderDistinct(s: Store)
    ensures Distinct(FeedOrder(s))
  {
    var order := FeedOrder(s);
    forall i, j | 0 <= i < j < |order|
      ensures order[i] != order[j]
    {
      assert Before(s.posts, order[i], order[j]);
    }
  }

  /** Two adjacent windows make up the window of their combined length. */
  lemma AdjacentWindows<T>(xs: seq<T>, offset: nat, limit: nat)
    ensures Window(xs, offset, limit) + Window(xs, offset + limit, limit) == Window(xs, offset, 2 * limit)
  {
    var a := Window(xs, offset, limit);
    var b := Window(xs, offset + limit, limit);
    var c := Window(xs, offset, 2 * limit);
    assert |b| > 0 ==> |a| == limit;
    assert |a + b| == |c|;
    forall i | 0 <= i < |c|
      ensures (a + b)[i] == c[i]
    {
      if i >= |a| {
        assert (a + b)[i] == b[i - |a|];
      }
    }
  }

  /** Adjacent windows of a sequence without repeats share no element. */
  lemma AdjacentWindowsDisjoint(xs: seq<PostId>, offset: nat, limit: nat)
    requires Distinct(xs)
    ensures var a := Window(xs, offset, limit);
            var b := Window(xs, offset + limit, limit);
            forall i, j :: 0 <= i < |a| && 0 <= j < |b| ==> a[i] != b[j]
  {
  }

  lemma RowsOfAppend(posts: map<PostId, Post>, u: seq<PostId>, v: seq<PostId>)
    requires forall i :: 0 <= i < |u| ==> u[i] in posts
    requires forall i :: 0 <= i < |v| ==> v[i] in posts
    ensures RowsOf(posts, u + v) == RowsOf(posts, u) + RowsOf(posts, v)
  {
  }

  /** A row's id is the key it was looked up under. */
  lemma RowIds(posts: map<PostId, Post>, ids: seq<PostId>)
    requires forall k :: k in posts ==> posts[k].id == k
    requires forall i :: 0 <= i < |ids| ==> ids[i] in posts
    ensures forall i :: 0 <= i < |ids| ==> RowsOf(posts, ids)[i].id == ids[i]
  {
  }

  /** Every id of the feed ordering is a stored post. */
  lemma FeedOrderCovers(s: Store)
    ensures Covers(s.posts, FeedOrder(s))
  {
  }

  /** The rows of two adjacent windows are the rows of the window of twice
      the length. */
  lemma AdjacentRows(posts: map<PostId, Post>, order: seq<PostId>, offset: nat, limit: nat)
    requires Covers(posts, order)
    ensures RowsOf(posts, Window(order, offset, limit)) + RowsOf(posts, Window(order, offset + limit, limit))
         == RowsOf(posts, Window(order, offset, 2 * limit))
  {
    var wa := Window(order, offset, limit);
    var wb := Window(order, offset + limit, limit);
    AdjacentWindows(order, offset, limit);
    RowsOfAppend(posts, wa, wb);
  }

  /** The rows of pages `page` and `page + 1` of an ordering are the rows of
      the window of twice the limit at the first page's offset. */
  lemma AdjacentPages(posts: map<PostId, Post>, order: seq<PostId>, page: int, limit: int)
    requires Covers(posts, order) && page >= 1 && limit >= 1
    ensures RowsOf(posts, Window(order, Offset(page, limit), limit))
          + RowsOf(posts, Window(order, Offset(page + 1, limit), limit))
         == RowsOf(posts, Window(order, Offset(page, limit), 2 * limit))
  {
    OffsetNext(page, limit);
    AdjacentRows(posts, order, Offset(page, limit), limit);
  }

  /** The rows of two adjacent windows of an ordering without repeats carry
      different ids. */
  lemma AdjacentRowsDisjoint(posts: map<PostId, Post>, order: seq<PostId>, offset: nat, limit: nat)
    requires Covers(posts, order) && Distinct(order)
    requires forall k :: k in posts ==> posts[k].id == k
    ensures var a := RowsOf(posts, Window(order, offset, limit));
            var b := RowsOf(posts, Window(order, offset + limit, limit));
            forall i, j :: 0 <= i < |a| && 0 <= j < |b| ==> a[i].id != b[j].id
  {
    var wa := Window(order, offset, limit);
    var wb := Window(order, offset + limit, limit);
    AdjacentWindowsDisjoint(order, offset, limit);
    RowIds(posts, wa);
    RowIds(posts, wb);
  }

  /** Pages `page` and `page + 1` of an ordering without repeats share no id. */
  lemma AdjacentPagesDisjoint(posts: map<PostId, Post>, order: seq<PostId>, page: int, limit: int)
    requires Covers(posts, order) && Distinct(order) && page >= 1 && limit >= 1
    requires forall k :: k in posts ==> posts[k].id == k
    ensures var a := RowsOf(posts, Window(order, Offset(page, limit), limit));
            var b := RowsOf(posts, Window(order, Offset(page + 1, limit), limit));
            forall i, j :: 0 <= i < |a| && 0 <= j < |b| ==> a[i].id != b[j].id
  {
    OffsetNext(page, limit);
    AdjacentRowsDisjoint(posts, order, Offset(page, limit), limit);
  }

  /** Pages `page` and `page + 1` at one limit are consecutive windows of one
      ordering: together they are the window of twice the limit. */
  lemma ConsecutivePagesContiguous(s: Store, page: int, limit: int)
    requires Wellformed(s) && page >= 1 && 1 <= limit <= 100
    ensures GetPostsFeed(s, page, limit).value + GetPostsFeed(s, page + 1, limit).value
         == RowsOf(s.posts, Window(FeedOrder(s), Offset(page, limit), 2 * limit))
  {
    FeedOrderCovers(s);
    AdjacentPages(s.posts, FeedOrder(s), page, limit);
  }

  /** No post appears on two consecutive pages. */
  lemma ConsecutivePagesDisjoint(s: Store, page: int, limit: int)
    requires Wellformed(s) && page >= 1 && 1 <= limit <= 100
    ensures var a := GetPostsFeed(s, page, limit).value;
            var b := GetPostsFeed(s, page + 1, limit).value;
            forall i, j :: 0 <= i < |a| && 0 <= j < |b| ==> a[i].id != b[j].id
  {
    FeedOrderCovers(s);
    FeedOrderDistinct(s);
    AdjacentPagesDisjoint(s.posts, FeedOrder(s), page, limit);
  }

  /** Index `k` of the ordering falls on page `k / limit + 1`, at position
      `k % limit`. */
  lemma PageOfIndex(k: nat, limit: int)
    requires limit >= 1
    ensures Offset(k / limit + 1, limit) + k % limit == k
    ensures 0 <= k % limit < limit
  {
    assert (k / limit) * limit + k % limit == k;
  }

  /** The id at index `k` of an ordering is on page `k / limit + 1`, at
      position `k % limit`. */
  lemma IndexOnPage(posts: map<PostId, Post>, order: seq<PostId>, limit: int, k: nat) returns (page: int, i: int)
    requires Covers(posts, order) && 1 <= limit && k < |order|
    requires forall x :: x in posts ==> posts[x].id == x
    ensures page >= 1
    ensures var rows := RowsOf(posts, Window(order, Offset(page, limit), limit));
            0 <= i < |rows| && rows[i].id == order[k]
  {
    PageOfIndex(k, limit);
    page, i := k / limit + 1, k % limit;
    var w := Window(order, Offset(page, limit), limit);
    assert w[i] == order[k];
    RowIds(posts, w);
  }

  /** Every stored post is shown on some page, at every limit. */
  lemma EveryPostOnSomePage(s: Store, limit: int, pid: PostId)
    requires Wellformed(s) && 1 <= limit <= 100 && pid in s.posts
    ensures exists page, i :: page >= 1 && 0 <= i < |GetPostsFeed(s, page, limit).value|
                              && GetPostsFeed(s, page, limit).value[i].id == pid
  {
    FeedOrderCovers(s);
    var order := FeedOrder(s);
    assert pid in order;
    var k :| 0 <= k < |order| && order[k] == pid;
    var page, i := IndexOnPage(s.posts, order, limit, k);
    var feed := GetPostsFeed(s, page, limit).value;
    assert feed == RowsOf(s.posts, Window(order, Offset(page, limit), limit));
    assert page >= 1 && 0 <= i < |feed| && feed[i].id == pid;
  }
}

=== FILE: records.dfy ===
/** The persisted entities the routers and services read and write, and the
    store that holds them: one map per table, one set per link table, and the
    append-only interaction log. */
module Records {
  import opened Wrappers

  type UserId = int
  type PostId = int
  type RoomId = int
  type LogId = int
  type MessageId = int

  /** A timestamp as a whole number of seconds since the epoch. */
  type Time = int

  /** A user row with the fields the handlers read and write. */
  datatype User = User(
    id: UserId,
    username: string,
    fullName: Option<string>,
    email: string,
    password: string,                    // the stored hash, never the plain text
    disabled: bool,
    isAdmin: bool,
    emailVerified: bool,
    verificationCode: Option<string>,
    verificationCodeExpires: Option<Time>,
    twoFactorEnabled: bool,
    twoFactorSecret: Option<string>,
    pfp: Option<string>,
    followerCount: int,
    followingCount: int,
    postCount: int,
    totalLikesReceived: int,
    engagementRate: real)

  /** A post row with its interaction counters and derived score. */
  datatype Post = Post(
    id: PostId,
    userId: UserId,
    text: string,
    date: Time,
    likeCount: nat,
    replyCount: nat,
    shareCount: nat,
    viewCount: nat,
    engagementScore: real)

  datatype InteractionType = View | Like | Reply | Share | Click | ProfileView

  datatype Interaction = Interaction(userId: UserId, postId: PostId, kind: InteractionType)

  datatype MessageStatus = Sent | Delivered | Read

  datatype Message = Message(
    id: MessageId,
    roomId: RoomId,
    senderId: UserId,
    content: string,
    fileUrl: Option<string>,
    status: MessageStatus,
    createdAt: Time)

  /** A chat room. Its participant rows are `lastReadAt`: one entry per
      participant, holding that participant's `last_read_at`. */
  datatype ChatRoom = ChatRoom(
    id: RoomId,
    createdAt: Time,
    lastMessageAt: Time,
    lastReadAt: map<UserId, Time>,
    messages: seq<Message>)
  {
    function Participants(): set<UserId> {
      lastReadAt.Keys
    }
  }

  /** A log row; `context` is the JSON document kept as its text. */
  datatype LogEntry = LogEntry(
    id: LogId,
    level: string,
    message: string,
    timestamp: Time,
    context: Option<string>,
    userId: Option<UserId>)

  /** The database, plus `files`: the paths that exist on disk. */
  datatype Store = Store(
    users: map<UserId, User>,
    posts: map<PostId, Post>,
    follows: set<(UserId, UserId)>,      // (follower, followed)
    likes: set<(UserId, PostId)>,        // (user, liked post)
    interactions: seq<Interaction>,
    rooms: map<RoomId, ChatRoom>,
    logs: map<LogId, LogEntry>,
    files: set<string>)

  /** What the schema guarantees: every row sits under its own primary key and
      every post's author exists (the post's foreign key). */
  predicate Wellformed(s: Store) {
    && (forall k :: k in s.users ==> s.users[k].id == k)
    && (forall k :: k in s.posts ==> s.posts[k].id == k && s.posts[k].userId in s.users)
  }

  /** `s'` differs from `s` at most in the row of user `uid`. */
  predicate OnlyUserChanged(s: Store, s': Store, uid: UserId) {
    && s'.users.Keys == s.users.Keys
    && (forall k :: k in s.users && k != uid ==> s'.users[k] == s.users[k])
    && s'.posts == s.posts && s'.follows == s.follows && s'.likes == s.likes
    && s'.interactions == s.interactions && s'.rooms == s.rooms
    && s'.logs == s.logs && s'.files == s.files
  }

  /** Some element of a non-empty set: the row an unordered `.first()` returns. */
  ghost function Pick<T>(xs: set<T>): (x: T)
    requires xs != {}
    ensures x in xs
  {
    var x :| x in xs; x
  }
}

=== FILE: social.dfy ===
/** Follows and likes as store transitions (routers/social.py). Every
    handler takes `me`, the caller `get_current_active_user` resolved. */
module Social {
  import opened Wrappers
  import opened Records
  import opened Engagement
  import opened Dependencies

  /** The follow edges leaving `u`: whom `u` follows. */
  function Following(follows: set<(UserId, UserId)>, u: UserId): set<(UserId, UserId)> {
    set e | e in follows && e.0 == u
  }

  /** The follow edges arriving at `u`: who follows `u`. */
  function Followers(follows: set<(UserId, UserId)>, u: UserId): set<(UserId, UserId)> {
    set e | e in follows && e.1 == u
  }

  /** Every user's two follow counters agree with the edge set. */
  predicate CountersMatch(s: Store) {
    forall u :: u in s.users ==>
      && s.users[u].followingCount == |Following(s.follows, u)|
      && s.users[u].followerCount == |Followers(s.follows, u)|
  }

  /** The user rows after shifting `from`'s following counter and `to`'s
      follower counter by `delta`; `from` and `to` may be the same row, as
      they are when a user follows themself. */
  function ShiftCounters(users: map<UserId, User>, from: UserId, to: UserId, delta: int): (r: map<UserId, User>)
    requires from in users && to in users
    ensures r.Keys == users.Keys
    ensures forall k :: k in users ==>
      r[k] == users[k].(followingCount := users[k].followingCount + (if k == from then delta else 0),
                        followerCount := users[k].followerCount + (if k == to then delta else 0))
  {
    var u1 := users[from := users[from].(followingCount := users[from].followingCount + delta)];
    u1[to := u1[to].(followerCount := u1[to].followerCount + delta)]
  }

  /** `follow_user`. */
  ghost function Follow(s: Store, me: UserId, name: string): (r: Result<Store>)
    requires me in s.users
    ensures GetUser(s, name).NoSuchUser? ==> r == Err(HttpError(404, "User not found"))
    ensures GetUser(s, name).Found? && (me, GetUser(s, name).id) in s.follows
            ==> r == Err(HttpError(400, "Already following this user"))
    ensures r.Ok? <==> GetUser(s, name).Found? && (me, GetUser(s, name).id) !in s.follows
    ensures r.Ok? ==>
      var f := GetUser(s, name).id;
      && (me, f) !in s.follows
      && r.value.follows == s.follows + {(me, f)}
      && r.value.users == ShiftCounters(s.users, me, f, 1)
      && r.value == s.(users := r.value.users, follows := r.value.follows)
  {
    match GetUser(s, name)
    case NoSuchUser => Err(HttpError(404, "User not found"))
    case Found(f) =>
      if (me, f) in s.follows then Err(HttpError(400, "Already following this user"))
      else Ok(s.(users := ShiftCounters(s.users, me, f, 1), follows := s.follows + {(me, f)}))
  }

  /** `unfollow_user`. */
  ghost function Unfollow(s: Store, me: UserId, name: string): (r: Result<Store>)
    requires me in s.users
    ensures GetUser(s, name).NoSuchUser? ==> r == Err(HttpError(404, "User not found"))
    ensures GetUser(s, name).Found? && (me, GetUser(s, name).id) !in s.follows
            ==> r == Err(HttpError(400, "Not following this user"))
    ensures r.Ok? <==> GetUser(s, name).Found? && (me, GetUser(s, name).id) in s.follows
    ensures r.Ok? ==>
      var f := GetUser(s, name).id;
      && (me, f) in s.follows
      && r.value.follows == s.follows - {(me, f)}
      && r.value.users == ShiftCounters(s.users, me, f, -1)
      && r.value == s.(users := r.value.users, follows := r.value.follows)
  {
    match GetUser(s, name)
    case NoSuchUser => Err(HttpError(404, "User not found"))
    case Found(f) =>
      if (me, f) !in s.follows then Err(HttpError(400, "Not following this user"))
      else Ok(s.(users := ShiftCounters(s.users, me, f, -1), follows := s.follows - {(me, f)}))
  }

  /** Adding a new edge adds exactly it to the edges leaving its source and to
      the edges arriving at its target. */
  lemma EdgeSetsAfterAdd(follows: set<(UserId, UserId)>, e: (UserId, UserId), u: UserId)
    requires e !in follows
    ensures |Following(follows + {e}, u)| == |Following(follows, u)| + (if u == e.0 then 1 else 0)
    ensures |Followers(follows + {e}, u)| == |Followers(follows, u)| + (if u == e.1 then 1 else 0)
  {
    if u == e.0 {
      assert Following(follows + {e}, u) == Following(follows, u) + {e};
    } else {
      assert Following(follows + {e}, u) == Following(follows, u);
    }
    if u == e.1 {
      assert Followers(follows + {e}, u) == Followers(follows, u) + {e};
    } else {
      assert Followers(follows + {e}, u) == Followers(follows, u);
    }
  }

  lemma EdgeSetsAfterRemove(follows: set<(UserId, UserId)>, e: (UserId, UserId), u: UserId)
    requires e in follows
    ensures |Following(follows - {e}, u)| == |Following(follows, u)| - (if u == e.0 then 1 else 0)
    ensures |Followers(follows - {e}, u)| == |Followers(follows, u)| - (if u == e.1 then 1 else 0)
  {
    if u == e.0 {
      assert Following(follows - {e}, u) == Following(follows, u) - {e};
    } else {
      assert Following(follows - {e}, u) == Following(follows, u);
    }
    if u == e.1 {
      assert Followers(follows - {e}, u) == Followers(follows, u) - {e};
    } else {
      assert Followers(follows - {e}, u) == Followers(follows, u);
    }
  }

  /** A successful follow keeps both counters of every user equal to the
      number of its edges. */
  lemma FollowKeepsCounters(s: Store, me: UserId, name: string)
    requires me in s.users && CountersMatch(s)
    requires Follow(s, me, name).Ok?
    ensures CountersMatch(Follow(s, me, name).value)
  {
    var t := Follow(s, me, name).value;
    var f := GetUser(s, name).id;
    forall u | u in t.users
      ensures t.users[u].followingCount == |Following(t.follows, u)|
      ensures t.users[u].followerCount == |Followers(t.follows, u)|
    {
      EdgeSetsAfterAdd(s.follows, (me, f), u);
    }
  }

  /** A successful unfollow keeps the counters equal to the edge counts too. */
  lemma UnfollowKeepsCounters(s: Store, me: UserId, name: string)
    requires me in s.users && CountersMatch(s)
    requires Unfollow(s, me, name).Ok?
    ensures CountersMatch(Unfollow(s, me, name).value)
  {
    var t := Unfollow(s, me, name).value;
    var f := GetUser(s, name).id;
    forall u | u in t.users
      ensures t.users[u].followingCount == |Following(t.follows, u)|
      ensures t.users[u].followerCount == |Followers(t.follows, u)|
    {
      EdgeSetsAfterRemove(s.follows, (me, f), u);
    }
  }

  /** Shifting counters never touches usernames, so name lookups agree. */
  lemma ShiftKeepsNames(users: map<UserId, User>, from: UserId, to: UserId, delta: int, name: string)
    requires from in users && to in users
    ensures IdsNamed(ShiftCounters(users, from, to, delta), name) == IdsNamed(users, name)
  {
  }

  /** Shifting by `delta` and then by `-delta` gives back the same rows. */
  lemma ShiftInverse(users: map<UserId, User>, from: UserId, to: UserId, delta: int)
    requires from in users && to in users
    ensures ShiftCounters(ShiftCounters(users, from, to, delta), from, to, -delta) == users
  {
    var r := ShiftCounters(ShiftCounters(users, from, to, delta), from, to, -delta);
    forall k | k in users ensures r[k] == users[k] {
    }
    assert r.Keys == users.Keys;
  }

  /** Unfollowing right after following the same user restores the store. */
  lemma FollowThenUnfollow(s: Store, me: UserId, name: string)
    requires me in s.users && Follow(s, me, name).Ok?
    ensures Unfollow(Follow(s, me, name).value, me, name) == Ok(s)
  {
    var t := Follow(s, me, name).value;
    var f := GetUser(s, name).id;
    ShiftKeepsNames(s.users, me, f, 1, name);
    GetUserDependsOnNames(s, t, name);
    assert GetUser(t, name) == Found(f);
    assert (me, f) in t.follows;
    ShiftInverse(s.users, me, f, 1);
    assert t.follows - {(me, f)} == s.follows;
  }

  /** Following right after unfollowing the same user restores the store. */
  lemma UnfollowThenFollow(s: Store, me: UserId, name: string)
    requires me in s.users && Unfollow(s, me, name).Ok?
    ensures Follow(Unfollow(s, me, name).value, me, name) == Ok(s)
  {
    var t := Unfollow(s, me, name).value;
    var f := GetUser(s, name).id;
    ShiftKeepsNames(s.users, me, f, -1, name);
    GetUserDependsOnNames(s, t, name);
    assert GetUser(t, name) == Found(f);
    assert (me, f) !in t.follows;
    ShiftInverse(s.users, me, f, -1);
    assert t.follows + {(me, f)} == s.follows;
  }

  /** The interaction `like_post` records. */
  function LikeInteraction(me: UserId, pid: PostId): Interaction {
    Interaction(me, pid, InteractionType.Like)
  }

  /** The part of `like_post` before the rates: the edge, the interaction,
      the post's counter and score, and the author's likes received. */
  function RecordLike(s: Store, me: UserId, pid: PostId, now: Time): (t: Store)
    requires Wellformed(s) && pid in s.posts
    requires DecayDefined(HoursSince(s.posts[pid].date, now))
    ensures t.likes == s.likes + {(me, pid)}
    ensures t.interactions == s.interactions + [LikeInteraction(me, pid)]
    ensures t.posts.Keys == s.posts.Keys
    ensures forall k :: k in s.posts && k != pid ==> t.posts[k] == s.posts[k]
    ensures t.posts[pid].likeCount == s.posts[pid].likeCount + 1
    ensures t.posts[pid] == s.posts[pid].(likeCount := t.posts[pid].likeCount,
                                          engagementScore := t.posts[pid].engagementScore)
    ensures t.posts[pid].engagementScore == PostScore(t.posts[pid], now)
    ensures t.users.Keys == s.users.Keys
    ensures forall k :: k in s.users && k != s.posts[pid].userId ==> t.users[k] == s.users[k]
    ensures t.users[s.posts[pid].userId]
         == s.users[s.posts[pid].userId].(totalLikesReceived := s.users[s.posts[pid].userId].totalLikesReceived + 1)
    ensures t.follows == s.follows && t.rooms == s.rooms && t.logs == s.logs && t.files == s.files
  {
    var p := s.posts[pid];
    var liked := p.(likeCount := p.likeCount + 1);
    var author := p.userId;
    s.(posts := s.posts[pid := liked.(engagementScore := PostScore(liked, now))],
       users := s.users[author := s.users[author].(totalLikesReceived := s.users[author].totalLikesReceived + 1)],
       likes := s.likes + {(me, pid)},
       interactions := s.interactions + [LikeInteraction(me, pid)])
  }

  /** The caller's rate recomputed, then the author's: each from the
      store's interaction log and the user's own post count. */
  function RefreshRates(t: Store, me: UserId, author: UserId): (u: Store)
    requires me in t.users && author in t.users
    ensures u == t.(users := u.users)
    ensures u.users.Keys == t.users.Keys
    ensures forall k :: k in t.users && k != me && k != author ==> u.users[k] == t.users[k]
    ensures u.users[me] == t.users[me].(engagementRate := EngagementRate(t.interactions, me, t.users[me].postCount))
    ensures u.users[author] == t.users[author].(engagementRate := EngagementRate(t.interactions, author, t.users[author].postCount))
  {
    var t1 := UpdateUserEngagementRate(t, me).0;
    UpdateUserEngagementRate(t1, author).0
  }

  /** `like_post`. The score is recomputed from the incremented counters; a
      post dated exactly one day ahead makes that a division by zero, which
      the global handler turns into a 500 before anything is committed. The
      two engagement rates are recomputed last, the caller's first. */
  function LikePost(s: Store, me: UserId, pid: PostId, now: Time): (r: Result<Store>)
    requires Wellformed(s) && me in s.users
    ensures pid !in s.posts ==> r == Err(HttpError(404, "Post not found"))
    ensures pid in s.posts && (me, pid) in s.likes ==> r == Err(HttpError(400, "Already liked this post"))
    ensures r.Ok? <==> pid in s.posts && (me, pid) !in s.likes
                       && DecayDefined(HoursSince(s.posts[pid].date, now))
    ensures r.Ok? ==> && r.value.likes == s.likes + {(me, pid)}
                      && r.value.interactions == s.interactions + [LikeInteraction(me, pid)]
                      && r.value.follows == s.follows && r.value.rooms == s.rooms
                      && r.value.logs == s.logs && r.value.files == s.files
    ensures r.Ok? ==> && r.value.posts.Keys == s.posts.Keys
                      && (forall k :: k in s.posts && k != pid ==> r.value.posts[k] == s.posts[k])
                      && r.value.posts[pid].likeCount == s.posts[pid].likeCount + 1
                      && r.value.posts[pid] == s.posts[pid].(likeCount := r.value.posts[pid].likeCount,
                                                             engagementScore := r.value.posts[pid].engagementScore)
                      && r.value.posts[pid].engagementScore == PostScore(r.value.posts[pid], now)
    ensures r.Ok? ==> && r.value.users.Keys == s.users.Keys
                      && (forall k :: k in s.users && k != me && k != s.posts[pid].userId
                                      ==> r.value.users[k] == s.users[k])
    ensures r.Ok? ==>
      var author := s.posts[pid].userId;
      && r.value.users[author].totalLikesReceived == s.users[author].totalLikesReceived + 1
      && r.value.users[author] == s.users[author].(totalLikesReceived := s.users[author].totalLikesReceived + 1,
                                                  engagementRate := r.value.users[author].engagementRate)
      && (me != author ==> r.value.users[me] == s.users[me].(engagementRate := r.value.users[me].engagementRate))
    ensures r.Ok? ==>
      && r.value.users[me].engagementRate == EngagementRate(r.value.interactions, me, s.users[me].postCount)
      && r.value.users[s.posts[pid].userId].engagementRate
         == EngagementRate(r.value.interactions, s.posts[pid].userId, s.users[s.posts[pid].userId].postCount)
  {
    if pid !in s.posts then Err(HttpError(404, "Post not found"))
    else if (me, pid) in s.likes then Err(HttpError(400, "Already liked this post"))
    else if !DecayDefined(HoursSince(s.posts[pid].date, now)) then Err(UNEXPECTED_ERROR)
    else
      Ok(RefreshRates(RecordLike(s, me, pid, now), me, s.posts[pid].userId))
  }

  /** `unlike_post`: only the like edge goes; the counters, the score and the
      interaction log keep what the like added. */
  function UnlikePost(s: Store, me: UserId, pid: PostId): (r: Result<Store>)
    ensures pid !in s.posts ==> r == Err(HttpError(404, "Post not found"))
    ensures pid in s.posts && (me, pid) !in s.likes ==> r == Err(HttpError(400, "Not liked this post"))
    ensures r.Ok? <==> pid in s.posts && (me, pid) in s.likes
    ensures r.Ok? ==> (me, pid) !in r.value.likes && r.value.likes + {(me, pid)} == s.likes
    ensures r.Ok? ==> r.value == s.(likes := r.value.likes)
  {
    if pid !in s.posts then Err(HttpError(404, "Post not found"))
    else if (me, pid) !in s.likes then Err(HttpError(400, "Not liked this post"))
    else Ok(s.(likes := s.likes - {(me, pid)}))
  }

  /** A like followed by an unlike restores the like edges but keeps the
      incremented counter and the recorded interaction. */
  lemma LikeThenUnlike(s: Store, me: UserId, pid: PostId, now: Time)
    requires Wellformed(s) && me in s.users && pid in s.posts && (me, pid) !in s.likes
    requires DecayDefined(HoursSince(s.posts[pid].date, now))
    ensures UnlikePost(LikePost(s, me, pid, now).value, me, pid).Ok?
    ensures var t := UnlikePost(LikePost(s, me, pid, now).value, me, pid).value;
            && t.likes == s.likes
            && t.posts[pid].likeCount == s.posts[pid].likeCount + 1
            && t.interactions == s.interactions + [LikeInteraction(me, pid)]
  {
    var t := LikePost(s, me, pid, now).value;
    assert (s.likes + {(me, pid)}) - {(me, pid)} == s.likes;
  }

  /** A successful like keeps the store well formed. */
  lemma LikeKeepsWellformed(s: Store, me: UserId, pid: PostId, now: Time)
    requires Wellformed(s) && me in s.users && pid in s.posts && (me, pid) !in s.likes
    requires DecayDefined(HoursSince(s.posts[pid].date, now))
    ensures Wellformed(LikePost(s, me, pid, now).value)
  {
  }

  /** The liked flag follows the edge: set by the like, cleared by the unlike. */
  lemma LikeSetsLikedFlag(s: Store, me: UserId, pid: PostId, now: Time)
    requires Wellformed(s) && me in s.users && pid in s.posts && (me, pid) !in s.likes
    requires DecayDefined(HoursSince(s.posts[pid].date, now))
    ensures var t := LikePost(s, me, pid, now).value;
            && IsLikedByUser(s, pid, Some(me)) == Some(false)
            && IsLikedByUser(t, pid, Some(me)) == Some(true)
            && IsLikedByUser(UnlikePost(t, me, pid).value, pid, Some(me)) == Some(false)
  {
  }
}

=== FILE: text.dfy ===
/** String operations of Python's `str` that the handlers rely on, over `seq<char>`. */
module Text {

  /** The characters `str.isspace` accepts, which are the ones `str.strip()` removes. */
  predicate IsSpace(c: char) {
    || c == ' '
    || ('\t' <= c <= '\r')
    || ('\U{1C}' <= c <= '\U{1F}')
    || c == '\U{85}' || c == '\U{A0}' || c == '\U{1680}'
    || ('\U{2000}' <= c <= '\U{200A}')
    || c == '\U{2028}' || c == '\U{2029}' || c == '\U{202F}' || c == '\U{205F}' || c == '\U{3000}'
  }

  predicate IsBlank(s: string) {
    forall i :: 0 <= i < |s| ==> IsSpace(s[i])
  }

  /** `s.lstrip()`: the suffix left after dropping leading whitespace. */
  function TrimLeft(s: string): (r: string)
    ensures |r| <= |s| && r == s[|s| - |r|..]
    ensures forall i :: 0 <= i < |s| - |r| ==> IsSpace(s[i])
    ensures r == [] || !IsSpace(r[0])
  {
    if |s| > 0 && IsSpace(s[0]) then
      var r := TrimLeft(s[1..]);
      assert forall i :: 1 <= i < |s| - |r| ==> s[i] == s[1..][i - 1];
      r
    else
      s
  }

  /** `s.rstrip()`: the prefix left after dropping trailing whitespace. */
  function TrimRight(s: string): (r: string)
    ensures |r| <= |s| && r == s[..|r|]
    ensures forall i :: |r| <= i < |s| ==> IsSpace(s[i])
    ensures r == [] || !IsSpace(r[|r| - 1])
  {
    if |s| > 0 && IsSpace(s[|s| - 1]) then
      var r := TrimRight(s[..|s| - 1]);
      assert forall i :: |r| <= i < |s| - 1 ==> s[i] == s[..|s| - 1][i];
      r
    else
      s
  }

  /** `s.strip()`. */
  function Strip(s: string): string {
    TrimRight(TrimLeft(s))
  }

  /** `not s.strip()` holds exactly for the strings made only of whitespace. */
  lemma StripEmptyIffBlank(s: string)
    ensures Strip(s) == [] <==> IsBlank(s)
  {
    var l := TrimLeft(s);
    if Strip(s) == [] {
      assert l[0..] == l;
      assert l == [];
      assert s[..|s|] == s;
    } else {
      var r := Strip(s);
      assert !IsSpace(r[0]);
      assert r[0] == l[0] == s[|s| - |l|];
    }
  }

  /** The ASCII letters the email pattern's `[a-zA-Z]` class names. */
  predicate IsAsciiLetter(c: char) {
    ('a' <= c <= 'z') || ('A' <= c <= 'Z')
  }

  predicate IsAsciiDigit(c: char) {
    '0' <= c <= '9'
  }

  /** `str.lower()` on one character, for the ASCII range. */
  function LowerChar(c: char): (d: char)
    ensures 'A' <= c <= 'Z' ==> 'a' <= d <= 'z' && d as int - c as int == 32
    ensures !('A' <= c <= 'Z') ==> d == c
  {
    if 'A' <= c <= 'Z' then (c as int - 'A' as int + 'a' as int) as char else c
  }

  function Lower(s: string): (r: string)
    ensures |r| == |s|
    ensures forall i :: 0 <= i < |s| ==> r[i] == LowerChar(s[i])
  {
    seq(|s|, i requires 0 <= i < |s| => LowerChar(s[i]))
  }

  predicate OccursAt(t: string, pat: string, i: int) {
    0 <= i && i + |pat| <= |t| && t[i..i + |pat|] == pat
  }

  predicate Contains(t: string, pat: string) {
    exists i :: 0 <= i <= |t| && OccursAt(t, pat, i)
  }

  /** `s.replace(pat, rep)`: every non-overlapping occurrence of `pat`, scanned
      from the left, replaced by `rep`. */
  function ReplaceAll(s: string, pat: string, rep: string): (r: string)
    requires |pat| > 0
    ensures rep == [] ==> |r| <= |s|
    ensures |rep| == |pat| ==> |r| == |s|
    decreases |s|
  {
    if |s| < |pat| then s
    else if s[..|pat|] == pat then rep + ReplaceAll(s[|pat|..], pat, rep)
    else [s[0]] + ReplaceAll(s[1..], pat, rep)
  }

  /** A string with no occurrence of the pattern is left as it is. */
  lemma {:induction false} ReplaceAbsent(t: string, pat: string, rep: string)
    requires |pat| > 0 && !Contains(t, pat)
    ensures ReplaceAll(t, pat, rep) == t
    decreases |t|
  {
    if |t| >= |pat| {
      assert !OccursAt(t, pat, 0);
      assert t[0..|pat|] == t[..|pat|];
      forall i | 0 <= i <= |t[1..]| ensures !OccursAt(t[1..], pat, i) {
        if OccursAt(t[1..], pat, i) {
          assert t[1..][i..i + |pat|] == t[i + 1..i + 1 + |pat|];
          assert OccursAt(t, pat, i + 1);
        }
      }
      ReplaceAbsent(t[1..], pat, rep);
      assert [t[0]] + t[1..] == t;
    }
  }

  /** Removing every occurrence of a prefix that the rest never contains
      recovers the rest. */
  lemma StripPrefixOccurrences(pat: string, t: string)
    requires |pat| > 0 && !Contains(t, pat)
    ensures ReplaceAll(pat + t, pat, "") == t
  {
    var s := pat + t;
    assert s[..|pat|] == pat;
    assert s[|pat|..] == t;
    ReplaceAbsent(t, pat, "");
  }

  /** `s.split(c)[-1]`: the text after the last `c`, or all of `s` when it has none. */
  function AfterLast(s: string, c: char): (r: string)
    ensures |r| <= |s| && r == s[|s| - |r|..]
    ensures c !in r
    ensures |r| < |s| ==> s[|s| - |r| - 1] == c
  {
    if |s| == 0 then []
    else if s[|s| - 1] == c then []
    else
      var r := AfterLast(s[..|s| - 1], c);
      var n := |s| - 1 - |r|;
      assert forall i :: 0 <= i < |r| ==> r[i] == s[n + i];
      r + [s[|s| - 1]]
  }

  /** The text after the last `c` is fixed by any `c` followed only by
      other characters. */
  lemma AfterLastAt(s: string, c: char, d: int)
    requires 0 <= d < |s| && s[d] == c && c !in s[d + 1..]
    ensures AfterLast(s, c) == s[d + 1..]
  {
  }

  /** The number of occurrences of `c` in `s`. */
  function CountChar(s: string, c: char): nat {
    if |s| == 0 then 0 else (if s[0] == c then 1 else 0) + CountChar(s[1..], c)
  }

  lemma {:induction false} CountCharAppend(a: string, b: string, c: char)
    ensures CountChar(a + b, c) == CountChar(a, c) + CountChar(b, c)
    decreases |a|
  {
    if |a| > 0 {
      assert (a + b)[0] == a[0];
      assert (a + b)[1..] == a[1..] + b;
      CountCharAppend(a[1..], b, c);
    } else {
      assert a + b == b;
    }
  }

  lemma {:induction false} CountCharAbsent(s: string, c: char)
    requires c !in s
    ensures CountChar(s, c) == 0
    decreases |s|
  {
    if |s| > 0 {
      assert s[0] != c;
      assert c !in s[1..] by {
        assert forall k :: 0 <= k < |s| - 1 ==> s[1..][k] == s[k + 1];
      }
      CountCharAbsent(s[1..], c);
    }
  }

  /** `posixpath.join(a, b)` for two components. */
  function PathJoin(a: string, b: string): string {
    if |b| > 0 && b[0] == '/' then b
    else if |a| == 0 || a[|a| - 1] == '/' then a + b
    else a + "/" + b
  }
}

=== FILE: users.dfy ===
/** Account registration: the email syntax check and the validation,
    insertion and rollback sequence of `create_user` (routers/users.py). */
module Users {
  import opened Wrappers
  import opened Records
  import opened Text
  import opened Dependencies
  import Config

  /** `[a-zA-Z0-9._%+-]`, the local part's class. */
  predicate IsLocalChar(c: char) {
    IsAsciiLetter(c) || IsAsciiDigit(c) || c == '.' || c == '_' || c == '%' || c == '+' || c == '-'
  }

  /** `[a-zA-Z0-9.-]`, the domain's class. */
  predicate IsDomainChar(c: char) {
    IsAsciiLetter(c) || IsAsciiDigit(c) || c == '.' || c == '-'
  }

  /** `s` splits as `L @ M . T` with the '@' at `a` and the '.' at `d`,
      where L is one or more of the local class, M one or more of the domain
      class and T two or more letters: one way for
      `[a-zA-Z0-9._%+-]+@[a-zA-Z0-9.-]+\.[a-zA-Z]{2,}` to match all of `s`. */
  predicate SplitMatches(s: string, a: int, d: int) {
    && 0 < a && a + 1 < d && d + 3 <= |s|
    && s[a] == '@' && s[d] == '.'
    && (forall i :: 0 <= i < a ==> IsLocalChar(s[i]))
    && (forall i :: a < i < d ==> IsDomainChar(s[i]))
    && (forall i :: d < i < |s| ==> IsAsciiLetter(s[i]))
  }

  /** The whole of `s` matches the pattern body, for some choice of where
      the regex engine puts the '@' and the final '.'. */
  ghost predicate PatternMatchesAll(s: string) {
    exists a, d :: SplitMatches(s, a, d)
  }

  /** What `re.match` with the anchored pattern accepts: `$` matches at the end
      and also just before a final newline. */
  ghost predicate PatternAccepts(e: string) {
    PatternMatchesAll(e) || (|e| > 0 && e[|e| - 1] == '\n' && PatternMatchesAll(e[..|e| - 1]))
  }

  /** The first position of `c` in `s`, or -1. */
  function IndexOf(s: string, c: char): (i: int)
    ensures -1 <= i < |s|
    ensures i >= 0 ==> s[i] == c
    ensures forall j :: 0 <= j < |s| && (i == -1 || j < i) ==> s[j] != c
    decreases |s|
  {
    if |s| == 0 then -1
    else if s[|s| - 1] != c then IndexOf(s[..|s| - 1], c)
    else
      var j := IndexOf(s[..|s| - 1], c);
      if j == -1 then |s| - 1 else j
  }

  /** The last position of `c` in `s`, or -1. */
  function LastIndexOf(s: string, c: char): (i: int)
    ensures -1 <= i < |s|
    ensures i >= 0 ==> s[i] == c
    ensures forall j :: 0 <= j < |s| && j > i ==> s[j] != c
  {
    if |s| == 0 then -1
    else if s[|s| - 1] == c then |s| - 1
    else LastIndexOf(s[..|s| - 1], c)
  }

  /** The pattern body checked by one scan: a non-empty local part before the
      first '@', domain characters after it, and after the last '.' (which
      must leave at least one domain character before it) two or more
      letters. */
  predicate ScanValid(s: string) {
    var a := IndexOf(s, '@');
    var d := LastIndexOf(s, '.');
    && 0 < a && a + 1 < d && d + 3 <= |s|
    && (forall i :: 0 <= i < a ==> IsLocalChar(s[i]))
    && (forall i :: a < i < |s| ==> IsDomainChar(s[i]))
    && (forall i :: d < i < |s| ==> IsAsciiLetter(s[i]))
  }

  /** `is_valid_email`: the scan over the whole string, or over all but a
      final newline, which the pattern's `$` lets through. */
  predicate IsValidEmail(e: string)
    ensures IsValidEmail(e) ==> 6 <= |e| && '@' in e
  {
    if ScanValid(e) then
      assert e[IndexOf(e, '@')] == '@';
      true
    else if |e| > 0 && e[|e| - 1] == '\n' && ScanValid(e[..|e| - 1]) then
      var p := e[..|e| - 1];
      assert e[IndexOf(p, '@')] == '@';
      true
    else
      false
  }

  /** A successful scan exhibits a split of the pattern body. */
  lemma ScanGivesSplit(s: string)
    requires ScanValid(s)
    ensures SplitMatches(s, IndexOf(s, '@'), LastIndexOf(s, '.'))
  {
  }

  /** Any split of the pattern body is the one the scan finds: the local
      class has no '@' and letters have no '.'. */
  lemma SplitIsScan(s: string, a: int, d: int)
    requires SplitMatches(s, a, d)
    ensures IndexOf(s, '@') == a && LastIndexOf(s, '.') == d
    ensures ScanValid(s)
  {
    assert forall i :: 0 <= i < a ==> IsLocalChar(s[i]) && s[i] != '@';
    assert forall i :: d < i < |s| ==> IsAsciiLetter(s[i]) && s[i] != '.';
    forall i | a < i < |s| ensures IsDomainChar(s[i]) {
      if i > d {
        assert IsAsciiLetter(s[i]);
      }
    }
  }

  /** The scan accepts exactly the strings the pattern body matches. */
  lemma ScanMatchesPattern(s: string)
    ensures ScanValid(s) <==> PatternMatchesAll(s)
  {
    if ScanValid(s) {
      ScanGivesSplit(s);
    }
    if PatternMatchesAll(s) {
      var a, d :| SplitMatches(s, a, d);
      SplitIsScan(s, a, d);
    }
  }

  /** `is_valid_email` agrees with `re.match` of its pattern on every input. */
  lemma IsValidEmailMeansPattern(e: string)
    ensures IsValidEmail(e) <==> PatternAccepts(e)
  {
    ScanMatchesPattern(e);
    if |e| > 0 {
      ScanMatchesPattern(e[..|e| - 1]);
    }
  }

  /** A string with `c` at position `a` and nowhere else holds one `c`. */
  lemma CountSingle(s: string, c: char, a: int)
    requires 0 <= a < |s| && s[a] == c
    requires forall i :: 0 <= i < |s| && i != a ==> s[i] != c
    ensures CountChar(s, c) == 1
  {
    var l, r := s[..a], s[a + 1..];
    assert s == l + ([s[a]] + r);
    assert c !in l by {
      assert forall i :: 0 <= i < |l| ==> l[i] == s[i];
    }
    assert c !in r by {
      assert forall i :: 0 <= i < |r| ==> r[i] == s[a + 1 + i];
    }
    CountCharAppend(l, [s[a]] + r, c);
    CountCharAppend([s[a]], r, c);
    CountCharAbsent(l, c);
    CountCharAbsent(r, c);
    assert CountChar([s[a]], c) == 1;
  }

  /** The pattern body leaves no room for a second '@'. */
  lemma ScanHasOneAt(s: string)
    requires ScanValid(s)
    ensures CountChar(s, '@') == 1
  {
    var a := IndexOf(s, '@');
    assert forall i :: a < i < |s| ==> IsDomainChar(s[i]) && s[i] != '@';
    CountSingle(s, '@', a);
  }

  /** Every accepted email has exactly one '@'. */
  lemma ValidEmailHasOneAt(e: string)
    requires IsValidEmail(e)
    ensures CountChar(e, '@') == 1
  {
    if ScanValid(e) {
      ScanHasOneAt(e);
    } else {
      var core := e[..|e| - 1];
      ScanHasOneAt(core);
      assert e == core + "\n";
      CountCharAppend(core, "\n", '@');
    }
  }

  /** The body `POST /users` carries. */
  datatype UserCreate = UserCreate(username: string, fullName: Option<string>, email: string, password: string)

  /** The row `create_user` inserts: the password hashed, a pending
      verification code with its expiry, every other field at its default. */
  function NewUser(id: UserId, form: UserCreate, hashed: string, code: string, expires: Time): User {
    User(id, form.username, form.fullName, form.email, hashed,
         false, false, false, Some(code), Some(expires), false, None, None,
         0, 0, 0, 0, 0.0)
  }

  /** The store after `session.add(db_user)`: one new row, nothing else
      touched, the row carrying the hashed password and a code pending
      until `expires`. */
  function InsertUser(s: Store, id: UserId, form: UserCreate, hashed: string, code: string, expires: Time): (t: Store)
    requires id !in s.users
    ensures t.users.Keys == s.users.Keys + {id}
    ensures forall k :: k in s.users ==> t.users[k] == s.users[k]
    ensures t == s.(users := t.users)
    ensures t.users[id].username == form.username && t.users[id].email == form.email
    ensures t.users[id].password == hashed
    ensures t.users[id].verificationCode == Some(code) && t.users[id].verificationCodeExpires == Some(expires)
    ensures !t.users[id].emailVerified && !t.users[id].disabled && !t.users[id].isAdmin
    ensures !t.users[id].twoFactorEnabled
  {
    s.(users := s.users[id := NewUser(id, form, hashed, code, expires)])
  }

  /** The validation that runs before anything is written, in the source's
      order; the first failing check decides the error. */
  ghost function ValidateUser(s: Store, form: UserCreate): (r: Outcome)
    ensures r == Pass <==> !IsBlank(form.username) && form.username != "me" && !IsBlank(form.password)
                           && IsValidEmail(form.email) && GetUser(s, form.username).NoSuchUser?
    ensures IsBlank(form.username) || form.username == "me" ==> r == Fail(HttpError(400, "User is not valid"))
    ensures !IsBlank(form.username) && form.username != "me" && IsBlank(form.password)
            ==> r == Fail(HttpError(400, "Password is not valid"))
    ensures (!IsBlank(form.username) && form.username != "me" && !IsBlank(form.password)
             && !IsValidEmail(form.email)) ==> r == Fail(HttpError(400, "Invalid email format"))
    ensures (!IsBlank(form.username) && form.username != "me" && !IsBlank(form.password)
             && IsValidEmail(form.email) && GetUser(s, form.username).Found?)
            ==> r == Fail(HttpError(409, "User already exists"))
  {
    StripEmptyIffBlank(form.username);
    StripEmptyIffBlank(form.password);
    if Strip(form.username) == [] || form.username == "me" then Fail(HttpError(400, "User is not valid"))
    else if Strip(form.password) == [] then Fail(HttpError(400, "Password is not valid"))
    else if !IsValidEmail(form.email) then Fail(HttpError(400, "Invalid email format"))
    else if GetUser(s, form.username).Found? then Fail(HttpError(409, "User already exists"))
    else Pass
  }

  /** `create_user`. `hash` stands for `get_password_hash`, `code` for the
      random verification code, `id` for the key the database assigns and
      `sent` for what `send_verification_email` reported. When sending fails
      the inserted row is deleted again, so the store ends as it began. */
  ghost function CreateUser(s: Store, form: UserCreate, hash: string -> string, code: string,
                            id: UserId, now: Time, sent: bool): (r: Result<Store>)
    requires id !in s.users
    ensures ValidateUser(s, form).Fail? ==> r == Err(ValidateUser(s, form).error)
    ensures ValidateUser(s, form).Pass? && !sent
            ==> r == Err(HttpError(500, "Failed to send verification email"))
    ensures r.Ok? <==> ValidateUser(s, form).Pass? && sent
    ensures r.Ok? ==> r.value == InsertUser(s, id, form, hash(form.password), code,
                                            now + Config.VERIFICATION_CODE_EXPIRE_MINUTES * Config.SECONDS_PER_MINUTE)
  {
    var v := ValidateUser(s, form);
    if v.Fail? then Err(v.error) else
      var expires := now + Config.VERIFICATION_CODE_EXPIRE_MINUTES * Config.SECONDS_PER_MINUTE;
      var inserted := InsertUser(s, id, form, hash(form.password), code, expires);
      if sent then Ok(inserted)
      else
        // the inserted row is deleted again, leaving `s`
        Err(HttpError(500, "Failed to send verification email"))
  }

  /** After a successful registration the username resolves to a user, so
      registering it again is a conflict. */
  lemma RegisterTwiceConflicts(s: Store, form: UserCreate, hash: string -> string, code: string,
                               id: UserId, now: Time, code2: string, id2: UserId, now2: Time, sent2: bool)
    requires id !in s.users && CreateUser(s, form, hash, code, id, now, true).Ok?
    requires id2 !in CreateUser(s, form, hash, code, id, now, true).value.users
    ensures var t := CreateUser(s, form, hash, code, id, now, true).value;
            && GetUser(t, form.username).Found?
            && CreateUser(t, form, hash, code2, id2, now2, sent2) == Err(HttpError(409, "User already exists"))
  {
    var t := CreateUser(s, form, hash, code, id, now, true).value;
    assert t.users[id].username == form.username;
  }

  /** Whatever the outcome, a registered email has exactly one '@'. */
  lemma RegisteredEmailHasOneAt(s: Store, form: UserCreate, hash: string -> string, code: string,
                                id: UserId, now: Time)
    requires id !in s.users && CreateUser(s, form, hash, code, id, now, true).Ok?
    ensures CountChar(CreateUser(s, form, hash, code, id, now, true).value.users[id].email, '@') == 1
  {
    ValidEmailHasOneAt(form.email);
  }
}

=== FILE: wrappers.dfy ===
/** Failure-carrying datatypes shared by every handler of the model.
    An `Err` result stands for an `HTTPException` the handler raised; in every
    such case the store the caller holds is left as it was. */
module Wrappers {

  datatype Option<+T> = None | Some(value: T)

  /** The status code and detail text of an `HTTPException`. */
  datatype HttpError = HttpError(status: int, detail: string)

  datatype Result<+T> = Ok(value: T) | Err(error: HttpError) {

    predicate IsFailure() {
      Err?
    }

    function PropagateFailure<U>(): Result<U>
      requires Err?
    {
      Err(error)
    }

    function Extract(): T
      requires Ok?
    {
      value
    }
  }

  /** The outcome of a dependency that either lets the request through or stops it. */
  datatype Outcome = Pass | Fail(error: HttpError)
}
